=== FILE: README.md ===
# A verified model of four small programs

This project models, in Dafny, the logic of four programs in one repository.

- **The double-entry ledger** (`chinese/accounting_system.cpp`) keeps:
  - a registry of accounts keyed by code, in five categories (asset, liability, equity, revenue, expense);
  - an append-only list of transactions, with a running id counter;
  - a balance sheet and an income statement;
  - a line-oriented data file with an `ACCOUNTS` section and a `TRANSACTIONS` section.
- **The blackjack table** (`blackjack/script.js`) covers:
  - a 52-card deck, built suit by suit and shuffled in place;
  - hand values, with aces softened from 11 to 1 only as far as needed;
  - the round's state machine: deal, hit, stand, the dealer drawing to 17, the blackjack check and the final comparison.
- **The snake game** (`snake/main.go`) covers:
  - the tick that moves, kills, grows and scores;
  - food placement;
  - turning on arrow-key escape sequences, never straight back.
- **The chat site's store** (`website_test/script.js`) covers:
  - the user list, seeded with a default administrator;
  - registration with its validation rules;
  - login, logout, and posting messages as the signed-in user.

Where the source changes state in place, the model is a class: `AccountingSystem`, `BlackjackGame`, `Game` and `WebsiteApp`. Each class has the source's fields and methods that reassign them. These source loops are loops with invariants in the model:
- the report sums (`SumOfType`);
- the two sections of the save (`AccountSection`, `TransactionSection`);
- the load (`LoadData`);
- the deck's construction and shuffle (`CreateDeck`, `ShuffleDeck`);
- the hand value (`CalculateHandValue`);
- the dealer's draws (`DealerDraws`);
- the snake's collision scan (`Game.Update`).

Other source loops are modelled as functions or quantifiers:
- the `getline` field loops are the recursive `SplitAll` and `Fields`;
- JavaScript's `some` is an `exists`, and its `find` is the recursive `FindUser`;
- the food placement's retry loop is a choice among the free cells (`GenerateFood`).

Each method is proved against pure specification functions, and the properties the programs rely on are proved about those functions. Examples:

- a posting keeps the trial balance;
- the accounting equation;
- the save/load round trip of the data file;
- the hand value's ace rule;
- the deck keeping all 52 cards;
- the snake staying on the board without crossing itself;
- usernames staying unique.

Files:

- `wrappers.dfy`: the `Option` and `Result` types.
- `text.dfy`: the text helpers the ledger's file format uses:
  - decimal rendering (`to_string`);
  - the leading-integer parse of `stoi`;
  - the `getline` split on a delimiter;
  - the byte-wise key order of `std::map<std::string, _>`.
- `ledger_accounts.dfy`, `ledger_codec.dfy`, `ledger.dfy`: the ledger's entities and sums, its record codec, and the engine.
- `blackjack.dfy`, `snake.dfy`, `website.dfy`: the other three programs.

Money in the ledger is an integer count of minor units. This makes the exact-zero test for deleting an account and the file round trip statable.

### How the id counter is restored on load

Loading does not set the counter to the largest loaded id plus one. Each loaded transaction is built with the constructor, which takes the counter and increments it; the counter is then raised to `max(counter, id + 1)` (`chinese/accounting_system.cpp:79-82`). So every loaded transaction advances the counter by at least one.

- With increasing ids starting at or above the counter, the counter ends one past the last id. That is `Ledger.NextIdAfterIncreasing`. It covers a file in whose history no session used the data menu's reload (`chinese/accounting_system.cpp:459-460`). One reload anywhere in that history is enough to break it. A session that records id 1, saves, reloads and saves again writes ids 1, 1. A later session that loads this file once, at start-up, then records id 3 and saves, writes 1, 1, 3, which is not increasing.
- With ids 5 then 2 the counter ends at 7. That is `Ledger.NextIdAfterOutOfOrder`.

### Loading into a non-empty engine

Loading does not clear the engine first. Loaded accounts overwrite same-code entries, and loaded transactions are appended after the existing ones. The data menu's reload (`chinese/accounting_system.cpp:459-460`) therefore appends the file's transactions a second time: a ledger with ids 1, 2 holds 1, 2, 1, 2 afterwards, and a file saved after that has ids out of order.

## Model

| member | source | states |
|---|---|---|
| Accounts.Ordinal | chinese/accounting_system.cpp:13-19 | the stored ordinal of a category is its declaration position, below 5 |
| Accounts.TypeOfOrdinal | chinese/accounting_system.cpp:143 | an ordinal converts back to a category exactly when it is 0..4, and then to the category with that ordinal |
| Accounts.Account.Debit | chinese/accounting_system.cpp:107-113 | a debit adds the amount to asset and expense accounts and subtracts it from the other three; name, code and type are kept |
| Accounts.Account.Credit | chinese/accounting_system.cpp:115-121 | a credit adds the amount to liability, equity and revenue accounts and subtracts it from assets and expenses |
| Accounts.NewAccount | chinese/accounting_system.cpp:99-100 | a new account has the given name, code and type and a zero balance |
| Accounts.DebitCreditCancel | chinese/accounting_system.cpp:107-121 | a debit and a credit of one amount on one account cancel, in either order |
| Accounts.Weight | chinese/accounting_system.cpp:246-248 | a report counts an account's balance only under its own category; in the trial balance a positive balance counts up exactly for asset and expense accounts |
| Accounts.SumOver | chinese/accounting_system.cpp:243-252 | a sum of balances is zero when every summed account contributes zero |
| Accounts.SumOverSign | chinese/accounting_system.cpp:243-252 | a sum of balances keeps the sign all its contributions share |
| Accounts.Total | chinese/accounting_system.cpp:243-252 | a category with no accounts totals zero, and a category whose balances are all non-negative has a non-negative total |
| Accounts.SignedDebitCredit | chinese/accounting_system.cpp:107-121 | a debit raises the trial balance by the amount and a credit lowers it by the amount, for every category |
| Accounts.SumOverRemove | chinese/accounting_system.cpp:243-252 | a sum of balances does not depend on the order the accounts are visited in |
| Accounts.SumOverAgree | chinese/accounting_system.cpp:243-252 | two registries that agree on the summed accounts give the same sum |
| Accounts.TotalUpdate | chinese/accounting_system.cpp:161 | inserting or replacing one account changes a total by the difference of its contributions |
| Accounts.TotalErase | chinese/accounting_system.cpp:177 | erasing an account takes its contribution out of a total |
| Accounts.SignedIsSubtotals | chinese/accounting_system.cpp:243-305 | the trial balance is assets plus expenses less liabilities, equity and revenue |
| Accounts.AccountingEquation | chinese/accounting_system.cpp:243-305 | with a zero trial balance, assets equal liabilities plus equity plus net income |
| Text.DigitChar | chinese/accounting_system.cpp:131 | a digit character is a digit, and it reads back as the digit it renders |
| Text.NatToString | chinese/accounting_system.cpp:131 | `to_string` of a natural number is a non-empty run of digits |
| Text.IntToString | chinese/accounting_system.cpp:131 | `to_string` of an integer starts with a digit or a minus sign and is never empty |
| Text.NatToStringValue | chinese/accounting_system.cpp:131 | the digits `to_string` writes denote the number written |
| Text.DigitRun | chinese/accounting_system.cpp:143-144 | the digit run at the start of a field is all digits and is followed by a non-digit or the end |
| Text.Stoi | chinese/accounting_system.cpp:143 | `stoi` succeeds only within the 32-bit range, and then with the leading integer of the field |
| Text.ParseIntToString | chinese/accounting_system.cpp:143-144 | the leading-integer parse reads back every rendered integer |
| Text.StoiIntToString | chinese/accounting_system.cpp:80 | `stoi` reads back every rendered 32-bit integer |
| Text.ParseLeadingInt | chinese/accounting_system.cpp:143 | the leading-integer parse fails on an empty field and on a field starting with neither white space, a sign nor a digit, and reads a non-negative number from a field starting with a digit |
| Text.Join | chinese/accounting_system.cpp:66-67 | joined fields start with the first field, followed by the delimiter when there is a second |
| Text.JoinEmptyLast | chinese/accounting_system.cpp:318 | joining with an empty last field ends the text with the delimiter, as `endl` after every line does |
| Text.SplitAll | chinese/accounting_system.cpp:135-141 | splitting on a delimiter gives at least one piece, and no piece holds the delimiter |
| Text.Fields | chinese/accounting_system.cpp:135-141 | the items a `getline` loop collects hold no delimiter |
| Text.SplitAllNoSep | chinese/accounting_system.cpp:135-141 | a text without the delimiter splits into itself |
| Text.SplitAllCons | chinese/accounting_system.cpp:135-141 | a field, a delimiter and a rest split into the field followed by the rest's pieces |
| Text.SplitAllJoin | chinese/accounting_system.cpp:66-67 | splitting fields joined by a delimiter none of them holds gives the fields back |
| Text.FieldsJoin | chinese/accounting_system.cpp:135-141 | the `getline` loop reads back the joined fields when the last one is not empty |
| Text.LessIrreflexive | chinese/accounting_system.cpp:151 | no key precedes itself in the map's key order |
| Text.LessTransitive | chinese/accounting_system.cpp:151 | the map's key order is transitive |
| Text.LessTotal | chinese/accounting_system.cpp:151 | any two different keys are ordered one way or the other |
| Text.LeastExists | chinese/accounting_system.cpp:316 | every non-empty set of codes has a least code |
| Text.LeastUnique | chinese/accounting_system.cpp:316 | the least code of a set is unique |
| Text.SortedKeys | chinese/accounting_system.cpp:316 | iteration order of the map: every code exactly once, strictly ascending |
| Text.SortedKeysFirst | chinese/accounting_system.cpp:316 | the iteration starts at the least code and continues in order over the rest |
| LedgerCodec.ParseAccount | chinese/accounting_system.cpp:134-146 | a parsed account has at least four fields, with the code from the first and the name from the second |
| LedgerCodec.ParseTransaction | chinese/accounting_system.cpp:70-84 | a parsed transaction has at least six fields, a 32-bit id, and the date and description from fields two and three |
| LedgerCodec.AccountLine | chinese/accounting_system.cpp:130-131 | an account record opens with the code and a comma, so it is neither blank nor a section marker |
| LedgerCodec.TransactionLine | chinese/accounting_system.cpp:65-67 | a transaction record holds a comma, so it is neither blank nor a section marker |
| LedgerCodec.IntToStringClean | chinese/accounting_system.cpp:131 | a rendered number holds no comma and no newline |
| LedgerCodec.JoinNoNewline | chinese/accounting_system.cpp:66-67 | joining fields without newlines gives a text without newlines |
| LedgerCodec.AccountLineClean | chinese/accounting_system.cpp:130-131 | an account record with clean code and name is one line |
| LedgerCodec.TransactionLineClean | chinese/accounting_system.cpp:65-67 | a transaction record with clean text fields is one line |
| LedgerCodec.AccountRoundTrip | chinese/accounting_system.cpp:130-146 | parsing an account's record gives back the same code, name, type and balance |
| LedgerCodec.TransactionRoundTrip | chinese/accounting_system.cpp:65-84 | parsing a transaction's record gives back the same id, date, description, names and amount |
| Ledger.Posted | chinese/accounting_system.cpp:196-197 | posting debits the debit account, credits the credit account and touches no other; posting to one account twice leaves it as it was |
| Ledger.PostingKeepsTrialBalance | chinese/accounting_system.cpp:181-200 | a posting leaves the trial balance unchanged |
| Ledger.PostingKeepsCodes | chinese/accounting_system.cpp:196-197 | a posting keeps every account filed under its own code |
| Ledger.AccountLines | chinese/accounting_system.cpp:316-318 | one account record per code, in the given order |
| Ledger.TransactionLines | chinese/accounting_system.cpp:321-323 | one transaction record per transaction, in ledger order |
| Ledger.SortedKeysStep | chinese/accounting_system.cpp:316 | taking the least remaining code moves it to the end of the codes already walked |
| Ledger.WalkStep | chinese/accounting_system.cpp:316-318 | one step of the in-order walk writes the record of the least remaining code |
| Ledger.AccountLinesSnoc | chinese/accounting_system.cpp:316-318 | writing one more account appends its record |
| Ledger.TransactionLinesSnoc | chinese/accounting_system.cpp:321-323 | writing one more transaction appends its record |
| Ledger.AccountLinesRecords | chinese/accounting_system.cpp:316-318 | every line of the accounts section is a record |
| Ledger.TransactionLinesRecords | chinese/accounting_system.cpp:321-323 | every line of the transactions section is a record |
| Ledger.SectionsLayout | chinese/accounting_system.cpp:315-323 | in the saved lines the two markers sit before and after the accounts section, and the transactions section follows |
| Ledger.SaveLines | chinese/accounting_system.cpp:308-327 | the saved lines are `ACCOUNTS`, one line per account, `TRANSACTIONS`, then the transactions' records in ledger order; every line but the two markers is a record |
| Ledger.FileText | chinese/accounting_system.cpp:315-323 | the file is the lines joined by newlines with a final newline, and empty when there are no lines |
| Ledger.FileTextLines | chinese/accounting_system.cpp:315-323 | reading the written file line by line gives back the lines written, when none holds a newline |
| Ledger.LoadLine | chinese/accounting_system.cpp:339-356 | a line fails only as a non-blank record inside a section, and then names itself; otherwise transactions are only appended, account codes only added and the counter never lowered |
| Ledger.LoadLines | chinese/accounting_system.cpp:339-356 | a failed load names one of its non-blank lines; a successful one keeps every transaction and account code already there and never lowers the counter |
| Ledger.LoadLinesAt | chinese/accounting_system.cpp:339-356 | reading from a given line on is reading that line, then the lines after it |
| Ledger.LoadLinesCons | chinese/accounting_system.cpp:339-356 | the loader reads the first line and then the rest, stopping at a malformed record |
| Ledger.LoadMarkersAndBlanks | chinese/accounting_system.cpp:340-350 | `ACCOUNTS` and `TRANSACTIONS` switch the section in any section, and a blank line is skipped |
| Ledger.LoadIgnoresPreamble | chinese/accounting_system.cpp:337-356 | lines before the first marker are ignored |
| Ledger.LoadKeepsInvariants | chinese/accounting_system.cpp:339-356 | loading keeps accounts filed by code and leaves the counter above every id |
| Ledger.LoadAccountLine | chinese/accounting_system.cpp:350-352 | an account record in the accounts section files the account under its code, overwriting |
| Ledger.LoadTransactionLine | chinese/accounting_system.cpp:353-354 | a transaction record appends the transaction and moves the counter to `max(counter + 1, id + 1)` |
| Ledger.RestrictStep | chinese/accounting_system.cpp:350-352 | filing one account and then the rest is filing them all |
| Ledger.LoadAccountLines | chinese/accounting_system.cpp:350-352 | loading an accounts section files every written account |
| Ledger.AppendStep | chinese/accounting_system.cpp:353-354 | appending one more loaded transaction extends the list and advances the counter by the load rule |
| Ledger.LoadTransactionLines | chinese/accounting_system.cpp:353-354 | loading a transactions section appends every written transaction in order |
| Ledger.OneLineEachConcat | chinese/accounting_system.cpp:315-323 | two newline-free line lists joined are newline-free |
| Ledger.AccountLinesOneLine | chinese/accounting_system.cpp:316-318 | the account records of a registry with clean codes and names are one line each |
| Ledger.TransactionLinesOneLine | chinese/accounting_system.cpp:321-323 | the transaction records of a ledger with clean text fields are one line each |
| Ledger.SaveLinesSplit | chinese/accounting_system.cpp:315-323 | a saved file splits back into exactly the lines written |
| Ledger.RestrictAll | chinese/accounting_system.cpp:316-318 | filing every account of a registry into an empty one rebuilds that registry |
| Ledger.LoadSavedLines | chinese/accounting_system.cpp:339-356 | reading the saved lines into a fresh engine rebuilds every account and every transaction in order |
| Ledger.SaveLoadRoundTrip | chinese/accounting_system.cpp:308-360 | loading a saved file into a fresh engine gives back every account and every transaction in order, with the counter past every id |
| Ledger.NextIdAfterIncreasing | chinese/accounting_system.cpp:79-82 | with increasing ids the counter ends one past the last id |
| Ledger.NextIdAfter | chinese/accounting_system.cpp:79-82 | every loaded transaction advances the counter by at least one, and the counter ends above every loaded id |
| Ledger.NextIdAfterOutOfOrder | chinese/accounting_system.cpp:79-82 | ids 5 then 2 leave the counter at 7 |
| Ledger.LoadFile | chinese/accounting_system.cpp:329-360 | a failed load names a non-blank line of the file; a successful one keeps every transaction and account code already there and never lowers the counter |
| Ledger.FirstCode | chinese/accounting_system.cpp:316 | the next code of the in-order walk is the least remaining one |
| Ledger.AccountingSystem.constructor | chinese/accounting_system.cpp:87 | a new engine is empty, with the counter at 1 |
| Ledger.AccountingSystem.AddAccount | chinese/accounting_system.cpp:156-163 | a used code changes nothing; otherwise exactly that code gets a zero-balance account and nothing else changes; the trial balance is kept |
| Ledger.AccountingSystem.RemoveAccount | chinese/accounting_system.cpp:165-179 | a missing code or a non-zero balance changes nothing; otherwise exactly that code is erased; the trial balance is kept |
| Ledger.AccountingSystem.AddTransaction | chinese/accounting_system.cpp:181-203 | unknown debit code, unknown credit code, then a non-positive amount are refused in that order with nothing changed; otherwise the posting is applied, one transaction with the old counter and both names is appended, and the counter goes up by one |
| Ledger.AccountingSystem.SumOfType | chinese/accounting_system.cpp:243-252 | a report loop sums the balances of exactly the accounts of one type |
| Ledger.AccountingSystem.GenerateBalanceSheet | chinese/accounting_system.cpp:240-277 | the asset, liability and equity totals, and liabilities plus equity |
| Ledger.AccountingSystem.GenerateIncomeStatement | chinese/accounting_system.cpp:279-306 | the revenue and expense totals and their difference |
| Ledger.AccountingSystem.SaveData | chinese/accounting_system.cpp:308-327 | the file holds `ACCOUNTS`, the accounts in ascending code order, `TRANSACTIONS`, then the transactions, one per line |
| Ledger.AccountingSystem.AccountSection | chinese/accounting_system.cpp:315-318 | the walk over the map writes one record per account in ascending code order |
| Ledger.AccountingSystem.TransactionSection | chinese/accounting_system.cpp:320-323 | the transactions are written in ledger order |
| Ledger.AccountingSystem.LoadData | chinese/accounting_system.cpp:329-360 | no file changes nothing; otherwise the state is what reading the file's lines gives, and a malformed record leaves it unchanged |
| Blackjack.SuitIndex | blackjack/script.js:32 | every suit has its position in the build order |
| Blackjack.RankIndex | blackjack/script.js:33 | every rank has its position in the build order |
| Blackjack.CardValue | blackjack/script.js:56-60 | an ace is 11, ten and face cards are 10, any other card its numeral, so every card is worth 2 to 11 |
| Blackjack.AceCount | blackjack/script.js:64-70 | a hand has no more aces than cards |
| Blackjack.SoftenedAces | blackjack/script.js:72-75 | the aces softened are the fewest that bring the sum to 21 or below, or all of them |
| Blackjack.SoftenedAcesUnique | blackjack/script.js:72-75 | that count is the only one with those properties |
| Blackjack.HandValue | blackjack/script.js:62-78 | an empty hand is 0; a sum of 21 or less is kept; a value over 21 has every ace counted as 1 |
| Blackjack.CalculateHandValue | blackjack/script.js:62-78 | the two loops compute the hand value |
| Blackjack.RawSum | blackjack/script.js:66-70 | every card adds at least 2 points to the raw sum of a hand |
| Blackjack.RawSumBound | blackjack/script.js:66-70 | every card counts at least 2 and an ace 11 in the raw sum |
| Blackjack.TwoCardsAtMost21 | blackjack/script.js:126-129 | a two-card hand is never over 21 |
| Blackjack.FreshDeck | blackjack/script.js:31-40 | the built deck has 52 cards |
| Blackjack.FreshDeckAt | blackjack/script.js:36-40 | the card at position 13·suit + rank is that suit and rank |
| Blackjack.FreshDeckDistinct | blackjack/script.js:31-40 | no card appears twice in the built deck |
| Blackjack.FreshDeckComplete | blackjack/script.js:31-40 | every card appears in the built deck |
| Blackjack.SwapKeepsCards | blackjack/script.js:48 | one swap keeps the deck's cards |
| Blackjack.Message | blackjack/script.js:146-203 | the message is empty exactly while the round is open |
| Blackjack.MessageInjective | blackjack/script.js:146-203 | different outcomes show different messages |
| Blackjack.Winner | blackjack/script.js:192-205 | a dealer over 21 loses, otherwise the higher score wins and equal scores tie |
| Blackjack.Naturals | blackjack/script.js:173-190 | a 21 on both sides ties, a 21 on one side wins for it, otherwise the round stays open |
| Blackjack.BlackjackGame.constructor | blackjack/script.js:2-12 | the game starts with a dealt round |
| Blackjack.BlackjackGame.CreateDeck | blackjack/script.js:31-43 | the deck holds exactly the 52 cards and the hands and flags are kept |
| Blackjack.BlackjackGame.ShuffleDeck | blackjack/script.js:45-50 | for any choice of swap partners the deck keeps its cards |
| Blackjack.BlackjackGame.DealCard | blackjack/script.js:52-54 | the last card is removed and returned |
| Blackjack.BlackjackGame.EndGame | blackjack/script.js:207-212 | the round is over with the given message and nothing else changes |
| Blackjack.BlackjackGame.NewGame | blackjack/script.js:118-136 | two cards each from a fresh deck, 48 left, every card in one place, then the blackjack check |
| Blackjack.BlackjackGame.CheckBlackjack | blackjack/script.js:173-190 | the round ends face up exactly when a hand is 21, with the matching message |
| Blackjack.BlackjackGame.Hit | blackjack/script.js:138-148 | nothing after the round ends; otherwise the player takes the deck's last card and a value over 21 ends the round as a player bust; cards are kept |
| Blackjack.BlackjackGame.Stand | blackjack/script.js:150-157 | nothing after the round ends; otherwise the dealer's hand is shown, the dealer draws to 17 or more and the winner is decided |
| Blackjack.BlackjackGame.DealerPlay | blackjack/script.js:159-171 | the dealer draws from the deck's end only while under 17, ends at 17 or more, and the round ends by the comparison |
| Blackjack.BlackjackGame.DetermineWinner | blackjack/script.js:192-205 | the round ends with the comparison's outcome |
| Blackjack.DrawStep | blackjack/script.js:162-166 | one dealer draw keeps the drawing record |
| Blackjack.DealerDraws | blackjack/script.js:159-167 | the drawing loop ends at 17 or more, took each card while under 17, and loses no card |
| Blackjack.SettledRound | blackjack/script.js:192-205 | after the dealer's drawing a non-busted player is never charged a bust, and loses under 17 unless the dealer busts |
| Snake.Opposite | snake/main.go:186-201 | the reverse heading differs from the heading |
| Snake.OppositeInvolution | snake/main.go:186-201 | reversing twice gives the heading back |
| Snake.Step | snake/main.go:85-94 | the new head is one cell away, horizontally or vertically |
| Snake.StepBack | snake/main.go:85-94 | a step back in the reverse heading returns to the cell |
| Snake.ArrowKey | snake/main.go:184-202 | an input is an arrow key exactly when it is one of the four three-byte escape sequences |
| Snake.ArrowKeyRoundTrip | snake/main.go:183-202 | each key's sequence reads back as that key |
| Snake.Turn | snake/main.go:184-202 | the new heading is never the reverse; non-arrow input keeps the heading; an allowed arrow sets it |
| Snake.Game.constructor | snake/main.go:38-53 | a one-cell snake in the middle heading right, score 0, food on a free cell |
| Snake.Game.GenerateFood | snake/main.go:55-75 | the food lands on the board off the snake whenever a free cell exists |
| Snake.Game.Update | snake/main.go:77-116 | nothing after game over; a wall or the body ends the game with nothing moved; food grows the snake and scores; otherwise it moves; the snake stays on the board, uncrossed, one longer than the score |
| Snake.Game.GrownStaysValid | snake/main.go:108-112 | growing onto a free board cell keeps the body on the board and uncrossed |
| Snake.Game.MovedStaysValid | snake/main.go:108-115 | moving onto a free board cell keeps the body on the board and uncrossed |
| Snake.Game.HandleInput | snake/main.go:178-204 | nothing after game over; otherwise the heading turns by the arrow key, never to the reverse |
| Website.TrimStart | website_test/script.js:92 | the leading white space is dropped and what remains does not start with white space |
| Website.TrimEnd | website_test/script.js:92 | the trailing white space is dropped and what remains does not end with white space |
| Website.Trim | website_test/script.js:92 | the trimmed text is a slice of the text with only white space cut off before and after it; it neither starts nor ends with white space, and is empty exactly when the text is all white space |
| Website.TrimWindow | website_test/script.js:92 | trimming cuts only white space, and only from the two ends |
| Website.SpaceWindow | website_test/script.js:92 | a white-space-cut prefix of a white-space-cut suffix is a slice of the text with white space on both sides |
| Website.AllSpaceConcat | website_test/script.js:92 | two all-white-space texts joined are all white space |
| Website.TrimEdges | website_test/script.js:92 | trimming the start and then the end leaves no white space at either end |
| Website.TrimEmptyIffSpace | website_test/script.js:92 | trimming the start and then the end leaves nothing exactly when the text is all white space |
| Website.TrimOfTrimmed | website_test/script.js:92 | a text without white space at either end is its own trim |
| Website.TrimIdempotent | website_test/script.js:92 | trimming twice is trimming once |
| Website.WithDefaultAdmin | website_test/script.js:11-21 | after seeding a user is named `admin`; the list is kept if one was, else the default administrator is appended |
| Website.WithDefaultAdminIdempotent | website_test/script.js:11-21 | seeding twice is seeding once, and seeding keeps usernames unique |
| Website.FindUser | website_test/script.js:100 | the first user matching both username and password, or none exactly when no user matches |
| Website.FindUserUnique | website_test/script.js:100 | with unique usernames the login finds the one matching user |
| Website.RegisteredCanLogIn | website_test/script.js:100-146 | a user appended under a trimmed name nobody holds, which is what a successful registration does, can log in with that name and the password as typed |
| Website.WebsiteApp.constructor | website_test/script.js:2-8 | the stored lists, nobody signed in, then the default administrator seeded |
| Website.WebsiteApp.InitializeDefaultAdmin | website_test/script.js:11-21 | the default administrator is appended exactly when no user is named `admin` |
| Website.WebsiteApp.HandleRegister | website_test/script.js:110-156 | the five checks refuse in order with nothing changed; otherwise one non-administrator with the trimmed name is appended, and unique usernames stay unique |
| Website.WebsiteApp.HandleLogin | website_test/script.js:91-108 | with both fields present the first user matching both signs in; otherwise the signed-in user is kept |
| Website.WebsiteApp.Logout | website_test/script.js:158-160 | nobody is signed in afterwards |
| Website.WebsiteApp.SendMessage | website_test/script.js:183-202 | an empty trimmed text changes nothing; otherwise exactly one message with the trimmed text and the user's name and administrator flag is appended |

## Left out

- Console output, the interactive menu (`chinese/accounting_system.cpp:363-557`) and opening and closing the data file are not modelled. `saveData` is modelled as the text it writes. `loadData` takes the file's text, or none when the file does not exist.
- Balances and amounts are integers in minor units rather than `double`. Floating-point rounding and the order of floating-point additions are not modelled.
- The exact number format is not modelled: `to_string(double)` writes six decimals and `stod` reads decimals, while here balances are written and read as integers.
- The clock is a parameter: the transaction date (`ctime`), the message id (`Date.now()`) and the message time stamp.
- Randomness is nondeterministic choice: the shuffle's swap partners and the food cell.
- Snake.Game.constructor: requires a board at least one cell wide and one cell high. With a zero width or height the source panics in `rand.Intn` when it places the first food (`snake/main.go:58-59`); that failure is not modelled.
- Snake.Game.GenerateFood: on a full board the source draws forever; here the food stays where it was.
- Blackjack.BlackjackGame.ShuffleDeck: states only that the cards are kept, not that every order is equally likely.
- Rendering and the page are not modelled. This covers the card and board display, `Render`, `updateUI`, `displayMessages` and `escapeHtml`, alerts, form clearing and `localStorage`. The stored users and messages are constructor parameters.
- Concurrency and timing are not modelled: the snake's input goroutine, channel and ticker, and the terminal raw mode.
- Blackjack.BlackjackGame.DealerPlay: the source schedules each dealer draw a second apart. Here the draws run one after another, so clicks on Hit or Stand between two draws are not modelled.
- Ledger.AccountingSystem.LoadData: the source does not handle a malformed record. It indexes missing fields or throws from `stoi`/`stod`, with some accounts already loaded. Here such a record is reported as corrupt and the engine is left as it was.
- LedgerCodec.ParseAccount: refuses a stored type ordinal outside 0..4 and reports the record as corrupt. The source's `static_cast` loads such an account: no report counts it, and both a debit and a credit reduce its balance. The menu only creates the five categories, so such an ordinal can only come from an edited file.
- Ledger.AccountingSystem.AddTransaction: the id counter and the ids are unbounded integers. In the source they are 32-bit `int`, and raising the counter past 2147483647 (`t.id + 1` on load, `nextId++` on a new transaction) is undefined behaviour. The model instead writes an id above that range, which `stoi` then refuses on reload.
- Ledger.LoadTransactionLine: the same counter is raised to `id + 1` without the 32-bit limit, so a stored id of 2147483647 leaves the counter at 2147483648 instead of overflowing.
- Ledger.SaveLoadRoundTrip: the file format has no escaping. The round trip is stated for codes, names, descriptions and dates without commas or newlines, and for ids within the 32-bit range `stoi` accepts.
- Blackjack.BlackjackGame.DealCard: requires a non-empty deck. Popping an empty array gives `undefined` in the source; that never happens in a round, which `Hit` and `DealerPlay` prove from the card count.
- Website.WebsiteApp.SendMessage: with nobody signed in the source fails reading the user's name before anything is appended; here nothing changes.
- Website.WebsiteApp.HandleRegister: lengths in the username and password checks count code points; JavaScript counts UTF-16 code units, so text outside the Basic Multilingual Plane is counted differently.
- Only the account category enumeration is modelled from `accountTypeToString`; its display names are not.

=== FILE: blackjack.dfy ===
/**
 * The blackjack table: a 52-card deck built suit by suit and shuffled in
 * place, hand values with aces softened from 11 to 1 only as far as needed,
 * and the round's state machine (deal, hit, stand, the dealer's drawing
 * rule, the blackjack check and the final comparison).
 */
module Blackjack {

  datatype Suit = Spades | Hearts | Diamonds | Clubs

  datatype Rank = Ace | Two | Three | Four | Five | Six | Seven | Eight | Nine | Ten | Jack | Queen | King

  datatype Card = Card(suit: Suit, rank: Rank)

  /** The suits and ranks in the order the deck is built. */
  const Suits: seq<Suit> := [Spades, Hearts, Diamonds, Clubs]
  const Ranks: seq<Rank> := [Ace, Two, Three, Four, Five, Six, Seven, Eight, Nine, Ten, Jack, Queen, King]

  function SuitIndex(s: Suit): (i: nat)
    ensures i < 4 && Suits[i] == s
  {
    match s
    case Spades => 0
    case Hearts => 1
    case Diamonds => 2
    case Clubs => 3
  }

  function RankIndex(r: Rank): (i: nat)
    ensures i < 13 && Ranks[i] == r
  {
    match r
    case Ace => 0
    case Two => 1
    case Three => 2
    case Four => 3
    case Five => 4
    case Six => 5
    case Seven => 6
    case Eight => 7
    case Nine => 8
    case Ten => 9
    case Jack => 10
    case Queen => 11
    case King => 12
  }

  // ---------------------------------------------------------------------
  // Card and hand values
  // ---------------------------------------------------------------------

  /** `getCardValue`: an ace is 11, a face card 10, any other card its numeral. */
  function CardValue(c: Card): (v: nat)
    ensures 2 <= v <= 11
    ensures v == 11 <==> c.rank == Ace
    ensures c.rank in {Ten, Jack, Queen, King} <==> v == 10
    ensures c.rank !in {Ace, Jack, Queen, King} ==> v == RankIndex(c.rank) + 1
  {
    match c.rank
    case Ace => 11
    case Jack => 10
    case Queen => 10
    case King => 10
    case _ => RankIndex(c.rank) + 1
  }

  /** The sum of the card values, every ace counted as 11. */
  function RawSum(hand: seq<Card>): (sum: nat)
    ensures 2 * |hand| <= sum
  {
    if hand == [] then 0 else RawSum(hand[..|hand| - 1]) + CardValue(hand[|hand| - 1])
  }

  /** The number of aces in the hand. */
  function AceCount(hand: seq<Card>): (n: nat)
    ensures n <= |hand|
  {
    if hand == [] then 0
    else AceCount(hand[..|hand| - 1]) + (if hand[|hand| - 1].rank == Ace then 1 else 0)
  }

  /**
   * How many aces must drop from 11 to 1: the fewest, out of the `aces`
   * available, that bring `raw` to 21 or below, or all of them if none do.
   */
  function SoftenedAces(raw: int, aces: nat): (k: nat)
    ensures k <= aces
    ensures raw - 10 * k <= 21 || k == aces
    ensures forall j :: 0 <= j < k ==> raw - 10 * j > 21
  {
    if raw <= 21 then 0
    else if aces <= (raw - 12) / 10 then aces
    else (raw - 12) / 10
  }

  /** Any count with the three properties above is that count. */
  lemma SoftenedAcesUnique(raw: int, aces: nat, k: nat)
    requires k <= aces
    requires raw - 10 * k <= 21 || k == aces
    requires forall j :: 0 <= j < k ==> raw - 10 * j > 21
    ensures k == SoftenedAces(raw, aces)
  {
  }

  /** The value of a hand: the raw sum with just enough aces counted as 1. */
  function HandValue(hand: seq<Card>): (v: int)
    ensures hand == [] ==> v == 0
    ensures v > 21 ==> v == RawSum(hand) - 10 * AceCount(hand)
    ensures RawSum(hand) <= 21 ==> v == RawSum(hand)
    ensures v >= |hand|
  {
    RawSumBound(hand);
    RawSum(hand) - 10 * SoftenedAces(RawSum(hand), AceCount(hand))
  }

  /** `calculateHandValue`: sum every card, then soften aces while the hand is over 21. */
  method CalculateHandValue(hand: seq<Card>) returns (value: int)
    ensures value == HandValue(hand)
  {
    value := 0;
    var aces := 0;
    for i := 0 to |hand|
      invariant value == RawSum(hand[..i])
      invariant aces == AceCount(hand[..i])
    {
      assert hand[..i + 1][..i] == hand[..i];
      value := value + CardValue(hand[i]);
      if hand[i].rank == Ace {
        aces := aces + 1;
      }
    }
    assert hand[..|hand|] == hand;
    ghost var raw := value;
    ghost var total := aces;
    while value > 21 && aces > 0
      invariant 0 <= aces <= total
      invariant value == raw - 10 * (total - aces)
      invariant forall j :: 0 <= j < total - aces ==> raw - 10 * j > 21
    {
      value := value - 10;
      aces := aces - 1;
    }
    SoftenedAcesUnique(raw, total, total - aces);
  }

  /** Every card is worth at least 2, and an ace 11. */
  lemma {:induction false} RawSumBound(hand: seq<Card>)
    ensures RawSum(hand) >= 11 * AceCount(hand) + 2 * (|hand| - AceCount(hand))
    decreases |hand|
  {
    if hand != [] {
      RawSumBound(hand[..|hand| - 1]);
    }
  }

  /** Two cards never bust: two aces count 12. */
  lemma TwoCardsAtMost21(hand: seq<Card>)
    requires |hand| == 2
    ensures HandValue(hand) <= 21
  {
    var first := hand[..1];
    assert hand[..|hand| - 1] == first;
    assert first[..0] == [];
    assert RawSum(first) == CardValue(hand[0]);
    assert RawSum(hand) == CardValue(hand[0]) + CardValue(hand[1]);
    assert AceCount(hand) == (if hand[0].rank == Ace then 1 else 0) + (if hand[1].rank == Ace then 1 else 0);
  }

  // ---------------------------------------------------------------------
  // The deck
  // ---------------------------------------------------------------------

  /** The deck `createDeck` builds before shuffling: suit by suit, ace to king. */
  function FreshDeck(): (d: seq<Card>)
    ensures |d| == 52
  {
    seq(52, i requires 0 <= i < 52 => Card(Suits[i / 13], Ranks[i % 13]))
  }

  lemma FreshDeckAt(s: nat, r: nat)
    requires s < 4 && r < 13
    ensures 13 * s + r < 52 && FreshDeck()[13 * s + r] == Card(Suits[s], Ranks[r])
  {
    assert (13 * s + r) / 13 == s;
    assert (13 * s + r) % 13 == r;
  }

  /** No card appears twice in a fresh deck. */
  lemma FreshDeckDistinct(i: int, j: int)
    requires 0 <= i < 52 && 0 <= j < 52 && i != j
    ensures FreshDeck()[i] != FreshDeck()[j]
  {
    assert i == 13 * (i / 13) + i % 13;
    assert j == 13 * (j / 13) + j % 13;
  }

  /** Every card is in a fresh deck. */
  lemma FreshDeckComplete(c: Card)
    ensures c in FreshDeck()
  {
    FreshDeckAt(SuitIndex(c.suit), RankIndex(c.rank));
  }

  lemma SwapKeepsCards(s: seq<Card>, i: nat, j: nat)
    requires i < |s| && j < |s|
    ensures multiset(s[i := s[j]][j := s[i]]) == multiset(s)
  {
  }

  // ---------------------------------------------------------------------
  // Outcomes
  // ---------------------------------------------------------------------

  /** The message line: empty while the round is open, then how it ended. */
  datatype Outcome =
    | Open
    | PlayerBusts
    | DealerBusts
    | PlayerWins
    | DealerWins
    | Tie
    | BothBlackjack
    | PlayerBlackjack
    | DealerBlackjack

  /** The text shown for each outcome. */
  function Message(o: Outcome): (text: string)
    ensures text == "" <==> o == Open
  {
    match o
    case Open => ""
    case PlayerBusts => "Player busts! Dealer wins!"
    case DealerBusts => "Dealer busts! Player wins!"
    case PlayerWins => "Player wins!"
    case DealerWins => "Dealer wins!"
    case Tie => "It's a tie!"
    case BothBlackjack => "Both have blackjack! It's a tie!"
    case PlayerBlackjack => "Blackjack! Player wins!"
    case DealerBlackjack => "Dealer has blackjack! Dealer wins!"
  }

  /** Different outcomes show different messages, so the message tells the outcome. */
  lemma MessageInjective(a: Outcome, b: Outcome)
    requires a != b
    ensures Message(a) != Message(b)
  {
  }

  /**
   * `determineWinner`: a dealer over 21 loses; otherwise the higher score
   * wins and equal scores tie. The player's score is not checked for a bust
   * here (a busted player never reaches this comparison).
   */
  function Winner(player: int, dealer: int): (o: Outcome)
    ensures o in {DealerBusts, PlayerWins, DealerWins, Tie}
    ensures o in {DealerBusts, PlayerWins} <==> dealer > 21 || player > dealer
    ensures o == DealerWins <==> dealer <= 21 && dealer > player
    ensures o == Tie <==> dealer <= 21 && player == dealer
  {
    if dealer > 21 then DealerBusts
    else if player > dealer then PlayerWins
    else if dealer > player then DealerWins
    else Tie
  }

  /** `checkBlackjack`: a two-card 21 on either side ends the round at once. */
  function Naturals(player: int, dealer: int): (o: Outcome)
    ensures o == Open <==> player != 21 && dealer != 21
    ensures o == BothBlackjack <==> player == 21 && dealer == 21
    ensures o == PlayerBlackjack <==> player == 21 && dealer != 21
    ensures o == DealerBlackjack <==> player != 21 && dealer == 21
  {
    if player == 21 && dealer == 21 then BothBlackjack
    else if player == 21 then PlayerBlackjack
    else if dealer == 21 then DealerBlackjack
    else Open
  }

  // ---------------------------------------------------------------------
  // The game
  // ---------------------------------------------------------------------

  /** `BlackjackGame`: the deck, both hands, and the round's flags and message. */
  class BlackjackGame {
    var deck: seq<Card>
    var playerHand: seq<Card>
    var dealerHand: seq<Card>
    var gameOver: bool
    var dealerHidden: bool
    var message: Outcome

    /** Every card of the pack is in exactly one place: the deck or a hand. */
    ghost predicate CardsKept()
      reads this
    {
      && multiset(deck) + multiset(dealerHand) + multiset(playerHand) == multiset(FreshDeck())
      && |deck| + |playerHand| + |dealerHand| == 52
    }

    /**
     * Between moves: cards are kept, the message is set exactly when the
     * round is over, and while it is open the dealer's two cards are
     * face down and the player has not bust.
     */
    ghost predicate Valid()
      reads this
    {
      && CardsKept()
      && |playerHand| >= 2 && |dealerHand| >= 2
      && (gameOver <==> message != Open)
      && (!gameOver ==> dealerHidden && |dealerHand| == 2 && HandValue(playerHand) <= 21)
    }

    /** The constructor starts a first round. */
    constructor()
      ensures Valid()
      ensures |deck| == 48 && |playerHand| == 2 && |dealerHand| == 2
    {
      deck := [];
      playerHand := [];
      dealerHand := [];
      gameOver := false;
      dealerHidden := true;
      message := Open;
      new;
      NewGame();
    }

    /** `createDeck`: all 52 cards suit by suit, then shuffled. */
    method CreateDeck()
      modifies this
      ensures multiset(deck) == multiset(FreshDeck())
      ensures playerHand == old(playerHand) && dealerHand == old(dealerHand)
      ensures gameOver == old(gameOver) && dealerHidden == old(dealerHidden) && message == old(message)
    {
      var cards := [];
      for s := 0 to 4
        invariant cards == FreshDeck()[..13 * s]
        invariant unchanged(this)
      {
        for r := 0 to 13
          invariant cards == FreshDeck()[..13 * s + r]
          invariant unchanged(this)
        {
          FreshDeckAt(s, r);
          assert FreshDeck()[..13 * s + r + 1] == FreshDeck()[..13 * s + r] + [Card(Suits[s], Ranks[r])];
          cards := cards + [Card(Suits[s], Ranks[r])];
        }
      }
      assert cards == FreshDeck();
      deck := cards;
      ShuffleDeck();
    }

    /**
     * `shuffleDeck`: the Fisher-Yates loop. The index `j` is drawn at random
     * from `0..i`; any such choice keeps the deck's cards.
     */
    method ShuffleDeck()
      modifies this
      ensures |deck| == old(|deck|) && multiset(deck) == old(multiset(deck))
      ensures playerHand == old(playerHand) && dealerHand == old(dealerHand)
      ensures gameOver == old(gameOver) && dealerHidden == old(dealerHidden) && message == old(message)
    {
      var cards := deck;
      var i := |cards| - 1;
      while i > 0
        invariant i < |cards| == |deck|
        invariant multiset(cards) == multiset(deck)
        invariant unchanged(this)
      {
        var j :| 0 <= j <= i;
        SwapKeepsCards(cards, i, j);
        cards := cards[i := cards[j]][j := cards[i]];
        i := i - 1;
      }
      deck := cards;
    }

    /** `dealCard`: pop the last card of the deck. */
    method DealCard() returns (card: Card)
      requires deck != []
      modifies this
      ensures card == old(deck)[|old(deck)| - 1]
      ensures deck == old(deck)[..|old(deck)| - 1]
      ensures multiset(old(deck)) == multiset(deck) + multiset{card}
      ensures playerHand == old(playerHand) && dealerHand == old(dealerHand)
      ensures gameOver == old(gameOver) && dealerHidden == old(dealerHidden) && message == old(message)
    {
      assert deck == deck[..|deck| - 1] + [deck[|deck| - 1]];
      card := deck[|deck| - 1];
      deck := deck[..|deck| - 1];
    }

    /** `endGame`: the round is over with this outcome. */
    method EndGame(o: Outcome)
      requires o != Open
      modifies this
      ensures gameOver && message == o
      ensures deck == old(deck) && playerHand == old(playerHand) && dealerHand == old(dealerHand)
      ensures dealerHidden == old(dealerHidden)
    {
      gameOver := true;
      message := o;
    }

    /**
     * `newGame`: a fresh shuffled deck, two cards each dealt alternately from
     * its end, the dealer's hand face down, then the blackjack check.
     */
    method NewGame()
      modifies this
      ensures Valid()
      ensures |deck| == 48 && |playerHand| == 2 && |dealerHand| == 2
      ensures message == Naturals(HandValue(playerHand), HandValue(dealerHand))
      ensures dealerHidden <==> message == Open
    {
      CreateDeck();
      playerHand := [];
      dealerHand := [];
      gameOver := false;
      dealerHidden := true;
      message := Open;
      assert multiset(deck) + multiset(dealerHand) + multiset(playerHand) == multiset(FreshDeck());
      var card := DealCard();
      playerHand := playerHand + [card];
      card := DealCard();
      dealerHand := dealerHand + [card];
      card := DealCard();
      playerHand := playerHand + [card];
      card := DealCard();
      dealerHand := dealerHand + [card];
      assert multiset(deck) + multiset(dealerHand) + multiset(playerHand) == multiset(FreshDeck());
      TwoCardsAtMost21(playerHand);
      CheckBlackjack();
    }

    /** `checkBlackjack`: end the round, face up, if either hand is 21. */
    method CheckBlackjack()
      modifies this
      requires message == Open && !gameOver && dealerHidden
      ensures var o := Naturals(HandValue(playerHand), HandValue(dealerHand));
        && message == o
        && (gameOver <==> o != Open)
        && (dealerHidden <==> o == Open)
      ensures deck == old(deck) && playerHand == old(playerHand) && dealerHand == old(dealerHand)
    {
      var playerScore := CalculateHandValue(playerHand);
      var dealerScore := CalculateHandValue(dealerHand);
      if playerScore == 21 && dealerScore == 21 {
        dealerHidden := false;
        EndGame(BothBlackjack);
      } else if playerScore == 21 {
        dealerHidden := false;
        EndGame(PlayerBlackjack);
      } else if dealerScore == 21 {
        dealerHidden := false;
        EndGame(DealerBlackjack);
      }
    }

    /**
     * `hit`: nothing once the round is over; otherwise the player takes the
     * top card, and a hand over 21 ends the round. The deck cannot be empty
     * here: an open round has at most 21 player cards and 2 dealer cards out.
     */
    method Hit()
      requires Valid()
      modifies this
      ensures Valid()
      ensures old(gameOver) ==> deck == old(deck) && playerHand == old(playerHand) && gameOver && message == old(message)
      ensures !old(gameOver) ==>
        && playerHand == old(playerHand) + [old(deck)[|old(deck)| - 1]]
        && deck == old(deck)[..|old(deck)| - 1]
        && (gameOver <==> HandValue(playerHand) > 21)
        && message == (if HandValue(playerHand) > 21 then PlayerBusts else Open)
      ensures dealerHand == old(dealerHand) && dealerHidden == old(dealerHidden)
    {
      if gameOver {
        return;
      }
      var card := DealCard();
      playerHand := playerHand + [card];
      var playerScore := CalculateHandValue(playerHand);
      if playerScore > 21 {
        EndGame(PlayerBusts);
      }
    }

    /**
     * `stand`: nothing once the round is over; otherwise the dealer's hand
     * is turned up, the dealer draws and the scores are compared.
     */
    method Stand()
      requires Valid()
      modifies this
      ensures Valid()
      ensures old(gameOver) ==> deck == old(deck) && dealerHand == old(dealerHand)
                                && dealerHidden == old(dealerHidden) && message == old(message)
      ensures !old(gameOver) ==>
        && gameOver && !dealerHidden
        && HandValue(dealerHand) >= 17
        && message == Winner(HandValue(playerHand), HandValue(dealerHand))
        && DrawnFrom(old(dealerHand), old(deck), dealerHand, deck)
        && DrewWhileUnder17(old(dealerHand), dealerHand)
      ensures playerHand == old(playerHand)
    {
      if gameOver {
        return;
      }
      dealerHidden := false;
      DealerPlay();
    }

    /**
     * `dealerPlay`: the dealer draws from the end of the deck while the hand
     * is under 17, then the winner is decided. (The source schedules each
     * draw a second later; here the draws follow one another.) The deck
     * cannot run out: a dealer hand under 17 has at most 16 cards.
     */
    method DealerPlay()
      requires CardsKept() && !gameOver && message == Open
      requires |playerHand| >= 2 && |dealerHand| >= 2 && HandValue(playerHand) <= 21
      modifies this
      ensures CardsKept() && gameOver
      ensures playerHand == old(playerHand) && dealerHidden == old(dealerHidden)
      ensures HandValue(dealerHand) >= 17
      ensures message == Winner(HandValue(playerHand), HandValue(dealerHand))
      ensures DrawnFrom(old(dealerHand), old(deck), dealerHand, deck)
      ensures DrewWhileUnder17(old(dealerHand), dealerHand)
    {
      var hand, cards := DealerDraws(dealerHand, deck);
      deck := cards;
      dealerHand := hand;
      DetermineWinner();
    }

    /** `determineWinner`: compare the two hands and end the round. */
    method DetermineWinner()
      modifies this
      ensures gameOver && message == Winner(HandValue(playerHand), HandValue(dealerHand))
      ensures deck == old(deck) && playerHand == old(playerHand) && dealerHand == old(dealerHand)
      ensures dealerHidden == old(dealerHidden)
    {
      var playerScore := CalculateHandValue(playerHand);
      var dealerScore := CalculateHandValue(dealerHand);
      EndGame(Winner(playerScore, dealerScore));
    }
  }

  /**
   * The dealer's hand grew from `h0` to `h` by taking cards one at a time
   * off the end of the deck `d0`, which is now `d`.
   */
  ghost predicate DrawnFrom(h0: seq<Card>, d0: seq<Card>, h: seq<Card>, d: seq<Card>)
  {
    && |h0| <= |h| && h[..|h0|] == h0
    && |d| + |h| == |d0| + |h0|
    && d == d0[..|d|]
    && forall i :: |h0| <= i < |h| ==> h[i] == d0[|d0| - 1 - (i - |h0|)]
  }

  /** Every card the dealer took was taken while the hand was under 17. */
  ghost predicate DrewWhileUnder17(h0: seq<Card>, h: seq<Card>)
  {
    forall n :: |h0| <= n < |h| ==> HandValue(h[..n]) < 17
  }

  /** Taking the last card of the deck onto a hand under 17 keeps both facts. */
  lemma DrawStep(h0: seq<Card>, d0: seq<Card>, h: seq<Card>, d: seq<Card>)
    requires DrawnFrom(h0, d0, h, d) && DrewWhileUnder17(h0, h)
    requires d != [] && HandValue(h) < 17
    ensures DrawnFrom(h0, d0, h + [d[|d| - 1]], d[..|d| - 1])
    ensures DrewWhileUnder17(h0, h + [d[|d| - 1]])
  {
    var h' := h + [d[|d| - 1]];
    assert h'[..|h0|] == h0;
    forall n | |h0| <= n < |h'|
      ensures HandValue(h'[..n]) < 17
    {
      assert h'[..n] == h[..n];
    }
  }

  /**
   * The drawing loop of `dealerPlay`: while the hand is under 17, take the
   * last card of the deck (`dealCard`). With at least 31 cards between the
   * deck and the hand (the player holds at most 21), the deck never runs out.
   */
  method DealerDraws(hand: seq<Card>, deck: seq<Card>) returns (hand': seq<Card>, deck': seq<Card>)
    requires |deck| + |hand| >= 31
    ensures HandValue(hand') >= 17
    ensures DrawnFrom(hand, deck, hand', deck')
    ensures DrewWhileUnder17(hand, hand')
    ensures multiset(deck') + multiset(hand') == multiset(deck) + multiset(hand)
  {
    hand', deck' := hand, deck;
    var score := CalculateHandValue(hand');
    while score < 17
      invariant multiset(deck') + multiset(hand') == multiset(deck) + multiset(hand)
      invariant score == HandValue(hand')
      invariant DrawnFrom(hand, deck, hand', deck')
      invariant DrewWhileUnder17(hand, hand')
      decreases |deck'|
    {
      DrawStep(hand, deck, hand', deck');
      var card := deck'[|deck'| - 1];
      assert deck' == deck'[..|deck'| - 1] + [card];
      deck' := deck'[..|deck'| - 1];
      hand' := hand' + [card];
      score := CalculateHandValue(hand');
    }
  }

  /**
   * Once the dealer has drawn to 17 or more, a player still at 21 or under
   * either wins, ties or loses on the comparison; a bust is never charged
   * to the player.
   */
  lemma SettledRound(player: int, dealer: int)
    requires player <= 21 && dealer >= 17
    ensures Winner(player, dealer) != PlayerBusts
    ensures dealer <= 21 && player < 17 ==> Winner(player, dealer) == DealerWins
  {
  }
}

=== FILE: ledger.dfy ===
/**
 * The double-entry ledger engine: an account registry keyed by code, an
 * append-only transaction list with a running id counter, the two reports,
 * and saving to / loading from the line-oriented data file.
 */
module Ledger {
  import opened Wrappers
  import opened Text
  import opened Accounts
  import opened LedgerCodec

  /** What an engine operation reports back (the source prints these as messages). */
  datatype Status =
    | Success
    | DuplicateCode
    | NotFound
    | NonZeroBalance
    | UnknownDebitAccount
    | UnknownCreditAccount
    | InvalidAmount
    | NoDataFile
    | CorruptRecord

  /** The engine's whole state as one value. */
  datatype Snapshot = Snapshot(accounts: map<string, Account>, transactions: seq<Transaction>, nextId: int)

  /** Every account is filed under its own code. */
  ghost predicate CodesMatch(accounts: map<string, Account>)
  {
    forall c :: c in accounts ==> accounts[c].code == c
  }

  /** Every recorded id is below the next id to be handed out. */
  ghost predicate IdsBelow(transactions: seq<Transaction>, nextId: int)
  {
    forall i :: 0 <= i < |transactions| ==> transactions[i].id < nextId
  }

  function Max(a: int, b: int): int { if a < b then b else a }

  /**
   * The registry after posting `amount` to the debit account and then to the
   * credit account.
   */
  function Posted(m: map<string, Account>, debitCode: string, creditCode: string, amount: int): (r: map<string, Account>)
    requires debitCode in m && creditCode in m
    ensures r.Keys == m.Keys
    ensures debitCode == creditCode ==> r == m
    ensures debitCode != creditCode ==> r[debitCode] == m[debitCode].Debit(amount) && r[creditCode] == m[creditCode].Credit(amount)
    ensures forall k :: k in m && k != debitCode && k != creditCode ==> r[k] == m[k]
  {
    var afterDebit := m[debitCode := m[debitCode].Debit(amount)];
    var r := afterDebit[creditCode := afterDebit[creditCode].Credit(amount)];
    if debitCode == creditCode then DebitCreditCancel(m[debitCode], amount); r else r
  }

  /** Posting a transaction keeps the trial balance: the debit and the credit cancel. */
  lemma PostingKeepsTrialBalance(m: map<string, Account>, debitCode: string, creditCode: string, amount: int)
    requires debitCode in m && creditCode in m
    ensures Total(Posted(m, debitCode, creditCode, amount), Signed) == Total(m, Signed)
  {
    var afterDebit := m[debitCode := m[debitCode].Debit(amount)];
    SignedDebitCredit(m[debitCode], amount);
    SignedDebitCredit(afterDebit[creditCode], amount);
    TotalUpdate(m, debitCode, m[debitCode].Debit(amount), Signed);
    TotalUpdate(afterDebit, creditCode, afterDebit[creditCode].Credit(amount), Signed);
  }

  /** Posting keeps every account filed under its own code. */
  lemma PostingKeepsCodes(m: map<string, Account>, debitCode: string, creditCode: string, amount: int)
    requires debitCode in m && creditCode in m && CodesMatch(m)
    ensures CodesMatch(Posted(m, debitCode, creditCode, amount))
  {
  }

  // ---------------------------------------------------------------------
  // The data file
  // ---------------------------------------------------------------------

  /** Which section the loader is in: none yet, accounts, or transactions. */
  datatype Section = BeforeMarker | InAccounts | InTransactions

  /** The loader's position after a line: its section and what it has read so far. */
  datatype Progress = Progress(sec: Section, snap: Snapshot)

  /** One line per account, in the given key order. */
  function AccountLines(m: map<string, Account>, keys: seq<string>): (lines: seq<string>)
    requires forall i :: 0 <= i < |keys| ==> keys[i] in m
    ensures |lines| == |keys|
    ensures forall i :: 0 <= i < |keys| ==> lines[i] == AccountLine(m[keys[i]])
  {
    if keys == [] then []
    else
      assert forall i :: 0 <= i < |keys| - 1 ==> keys[1..][i] == keys[i + 1];
      [AccountLine(m[keys[0]])] + AccountLines(m, keys[1..])
  }

  /** One line per transaction, in ledger order. */
  function TransactionLines(ts: seq<Transaction>): (lines: seq<string>)
    ensures |lines| == |ts|
    ensures forall i :: 0 <= i < |ts| ==> lines[i] == TransactionLine(ts[i])
  {
    if ts == [] then [] else [TransactionLine(ts[0])] + TransactionLines(ts[1..])
  }

  /** Taking the least remaining key moves it from the keys to come to the keys done. */
  lemma SortedKeysStep(all: seq<string>, done: seq<string>, rest: set<string>, code: string)
    requires IsLeast(code, rest)
    requires all == done + SortedKeys(rest)
    ensures all == (done + [code]) + SortedKeys(rest - {code})
  {
    SortedKeysFirst(rest, code);
  }

  /**
   * Walking a registry in key order: the keys done so far, followed by the
   * remaining keys in order, are all the keys in order.
   */
  ghost predicate WalkedSoFar(m: map<string, Account>, order: seq<string>, done: seq<string>, rest: set<string>)
  {
    && rest <= m.Keys
    && (forall i :: 0 <= i < |done| ==> done[i] in m)
    && order == done + SortedKeys(rest)
  }

  /** One step of the walk: the least remaining key is the next one in order. */
  lemma WalkStep(m: map<string, Account>, order: seq<string>, done: seq<string>, rest: set<string>, code: string)
    requires WalkedSoFar(m, order, done, rest) && IsLeast(code, rest)
    ensures code in m
    ensures WalkedSoFar(m, order, done + [code], rest - {code})
    ensures AccountLines(m, done + [code]) == AccountLines(m, done) + [AccountLine(m[code])]
  {
    SortedKeysStep(order, done, rest, code);
    AccountLinesSnoc(m, done, code);
  }

  lemma AccountLinesSnoc(m: map<string, Account>, keys: seq<string>, k: string)
    requires forall i :: 0 <= i < |keys| ==> keys[i] in m
    requires k in m
    ensures AccountLines(m, keys + [k]) == AccountLines(m, keys) + [AccountLine(m[k])]
  {
  }

  /** Writing one more transaction appends its record. */
  lemma TransactionLinesSnoc(ts: seq<Transaction>, i: nat)
    requires i < |ts|
    ensures TransactionLines(ts[..i + 1]) == TransactionLines(ts[..i]) + [TransactionLine(ts[i])]
  {
    assert ts[..i + 1] == ts[..i] + [ts[i]];
  }

  /** Every line is a record. */
  ghost predicate AllRecords(lines: seq<string>)
  {
    forall i :: 0 <= i < |lines| ==> IsRecord(lines[i])
  }

  lemma AccountLinesRecords(m: map<string, Account>, keys: seq<string>)
    requires forall i :: 0 <= i < |keys| ==> keys[i] in m
    ensures AllRecords(AccountLines(m, keys))
  {
    var lines := AccountLines(m, keys);
    forall i | 0 <= i < |lines| ensures IsRecord(lines[i]) {
      assert lines[i] == AccountLine(m[keys[i]]);
    }
  }

  lemma TransactionLinesRecords(ts: seq<Transaction>)
    ensures AllRecords(TransactionLines(ts))
  {
    var lines := TransactionLines(ts);
    forall i | 0 <= i < |lines| ensures IsRecord(lines[i]) {
      assert lines[i] == TransactionLine(ts[i]);
    }
  }

  /** Where the markers and the two sections sit in the saved lines. */
  lemma SectionsLayout(acc: seq<string>, tx: seq<string>)
    ensures var lines := ["ACCOUNTS"] + (acc + (["TRANSACTIONS"] + tx));
      && |lines| == |acc| + |tx| + 2
      && lines[0] == "ACCOUNTS" && lines[|acc| + 1] == "TRANSACTIONS"
      && lines[1..|acc| + 1] == acc && lines[|acc| + 2..] == tx
  {
    var lines := ["ACCOUNTS"] + (acc + (["TRANSACTIONS"] + tx));
    assert lines[1..] == acc + (["TRANSACTIONS"] + tx);
    assert lines[1..][..|acc|] == acc;
    assert lines[1..][|acc| + 1..] == tx;
  }

  /**
   * The lines `saveData` writes: `ACCOUNTS`, one record per account,
   * `TRANSACTIONS`, then the transactions' records in ledger order. Only the
   * two markers are not records.
   */
  ghost function SaveLines(s: Snapshot): (lines: seq<string>)
    ensures |lines| == |s.accounts| + |s.transactions| + 2
    ensures lines[0] == "ACCOUNTS" && lines[|s.accounts| + 1] == "TRANSACTIONS"
    ensures AllRecords(lines[1..|s.accounts| + 1]) && AllRecords(lines[|s.accounts| + 2..])
    ensures lines[|s.accounts| + 2..] == TransactionLines(s.transactions)
  {
    var keys := SortedKeys(s.accounts.Keys);
    var accLines := AccountLines(s.accounts, keys);
    var txLines := TransactionLines(s.transactions);
    AccountLinesRecords(s.accounts, keys);
    TransactionLinesRecords(s.transactions);
    SectionsLayout(accLines, txLines);
    ["ACCOUNTS"] + (accLines + (["TRANSACTIONS"] + txLines))
  }

  /** The file contents: every line followed by a newline (`endl`). */
  function FileText(lines: seq<string>): (text: string)
    ensures lines == [] ==> text == []
    ensures lines != [] ==> text == Join(lines, '\n') + ['\n']
  {
    var text := Join(lines + [""], '\n');
    if lines == [] then
      assert lines + [""] == [""];
      text
    else
      JoinEmptyLast(lines, '\n');
      text
  }

  /** Reading a file line by line gives back the lines it was written from. */
  lemma FileTextLines(lines: seq<string>)
    requires forall i :: 0 <= i < |lines| ==> '\n' !in lines[i]
    ensures Fields(FileText(lines), '\n') == lines
  {
    SplitAllJoin(lines + [""], '\n');
  }

  /**
   * The id counter after loading these transactions: each one is built with
   * the constructor (which takes the counter and bumps it) and the counter
   * is then raised to one past the stored id. So every loaded transaction
   * advances the counter by at least one, and the counter ends above every
   * loaded id.
   */
  function NextIdAfter(n: int, ts: seq<Transaction>): (next: int)
    ensures next >= n + |ts|
    ensures forall i :: 0 <= i < |ts| ==> ts[i].id < next
    decreases |ts|
  {
    if ts == [] then n
    else
      var next := NextIdAfter(Max(n + 1, ts[0].id + 1), ts[1..]);
      assert forall i :: 0 < i < |ts| ==> ts[i] == ts[1..][i - 1];
      next
  }

  /**
   * One line of the data file read in the given section: a marker switches
   * the section, a non-blank line inside a section is one record, anything
   * else is skipped. A malformed record fails with the offending line.
   */
  function LoadLine(sec: Section, s: Snapshot, line: string): (r: Result<Progress, string>)
    ensures r.Err? ==> r.error == line && line != "" && sec != BeforeMarker
    ensures r.Ok? ==> s.transactions <= r.value.snap.transactions && r.value.snap.nextId >= s.nextId
    ensures r.Ok? ==> s.accounts.Keys <= r.value.snap.accounts.Keys
  {
    if line == "ACCOUNTS" then Ok(Progress(InAccounts, s))
    else if line == "TRANSACTIONS" then Ok(Progress(InTransactions, s))
    else if sec == InAccounts && line != "" then
      match ParseAccount(line)
      case Some(a) => Ok(Progress(sec, s.(accounts := s.accounts[a.code := a])))
      case None => Err(line)
    else if sec == InTransactions && line != "" then
      match ParseTransaction(line)
      case Some(t) => Ok(Progress(sec, s.(transactions := s.transactions + [t], nextId := Max(s.nextId + 1, t.id + 1))))
      case None => Err(line)
    else Ok(Progress(sec, s))
  }

  /**
   * The lines of the file from the given section on, applied to a snapshot.
   * A failure names one of the lines; a success keeps every account code
   * and every transaction already there and never lowers the counter.
   */
  function LoadLines(sec: Section, s: Snapshot, lines: seq<string>): (r: Result<Snapshot, string>)
    ensures r.Err? ==> r.error != "" && exists k :: 0 <= k < |lines| && lines[k] == r.error
    ensures r.Ok? ==> s.transactions <= r.value.transactions && r.value.nextId >= s.nextId
    ensures r.Ok? ==> s.accounts.Keys <= r.value.accounts.Keys
    decreases |lines|
  {
    if lines == [] then Ok(s)
    else
      var step := LoadLine(sec, s, lines[0]);
      if step.Err? then Err(step.error)
      else
        var r := LoadLines(step.value.sec, step.value.snap, lines[1..]);
        assert forall k :: 0 <= k < |lines| - 1 ==> lines[1..][k] == lines[k + 1];
        r
  }

  /** Reading a line in front of the rest is reading the line, then the rest. */
  lemma LoadLinesCons(sec: Section, s: Snapshot, line: string, rest: seq<string>)
    ensures LoadLines(sec, s, [line] + rest)
         == var step := LoadLine(sec, s, line);
            if step.Err? then Err(step.error) else LoadLines(step.value.sec, step.value.snap, rest)
  {
    assert ([line] + rest)[1..] == rest;
  }

  /** Reading from line `i` on is reading line `i`, then the lines after it. */
  lemma LoadLinesAt(sec: Section, s: Snapshot, lines: seq<string>, i: nat)
    requires i < |lines|
    ensures LoadLines(sec, s, lines[i..])
         == var step := LoadLine(sec, s, lines[i]);
            if step.Err? then Err(step.error) else LoadLines(step.value.sec, step.value.snap, lines[i + 1..])
  {
    assert lines[i..][1..] == lines[i + 1..];
  }

  /** Section markers switch the section; blank lines are skipped. */
  lemma LoadMarkersAndBlanks(sec: Section, s: Snapshot, rest: seq<string>)
    ensures LoadLines(sec, s, ["ACCOUNTS"] + rest) == LoadLines(InAccounts, s, rest)
    ensures LoadLines(sec, s, ["TRANSACTIONS"] + rest) == LoadLines(InTransactions, s, rest)
    ensures LoadLines(sec, s, [""] + rest) == LoadLines(sec, s, rest)
  {
    LoadLinesCons(sec, s, "ACCOUNTS", rest);
    LoadLinesCons(sec, s, "TRANSACTIONS", rest);
    LoadLinesCons(sec, s, "", rest);
  }

  /** Lines before the first marker are ignored, whatever they hold. */
  lemma {:induction false} LoadIgnoresPreamble(s: Snapshot, pre: seq<string>, rest: seq<string>)
    requires forall i :: 0 <= i < |pre| ==> pre[i] != "ACCOUNTS" && pre[i] != "TRANSACTIONS"
    ensures LoadLines(BeforeMarker, s, pre + rest) == LoadLines(BeforeMarker, s, rest)
    decreases |pre|
  {
    if pre == [] {
      assert pre + rest == rest;
    } else {
      assert pre + rest == [pre[0]] + (pre[1..] + rest);
      LoadLinesCons(BeforeMarker, s, pre[0], pre[1..] + rest);
      LoadIgnoresPreamble(s, pre[1..], rest);
    }
  }

  /**
   * Loading keeps every account filed under its own code and leaves the id
   * counter above every transaction's id.
   */
  lemma {:induction false} LoadKeepsInvariants(sec: Section, s: Snapshot, lines: seq<string>)
    requires CodesMatch(s.accounts) && IdsBelow(s.transactions, s.nextId)
    requires LoadLines(sec, s, lines).Ok?
    ensures var s' := LoadLines(sec, s, lines).value;
      && CodesMatch(s'.accounts)
      && IdsBelow(s'.transactions, s'.nextId)
    decreases |lines|
  {
    if lines != [] {
      var step := LoadLine(sec, s, lines[0]).value;
      LoadKeepsInvariants(step.sec, step.snap, lines[1..]);
    }
  }

  /** The accounts of `m` under the given keys. */
  function Restrict(m: map<string, Account>, keys: seq<string>): map<string, Account>
  {
    map k | k in m && k in keys :: m[k]
  }

  /** An account line read in the accounts section files the account under its code. */
  lemma LoadAccountLine(s: Snapshot, a: Account)
    requires CleanField(a.code) && CleanField(a.name)
    ensures LoadLine(InAccounts, s, AccountLine(a)) == Ok(Progress(InAccounts, s.(accounts := s.accounts[a.code := a])))
  {
    AccountRoundTrip(a);
  }

  /** A transaction line read in the transactions section appends it and advances the counter. */
  lemma LoadTransactionLine(s: Snapshot, t: Transaction)
    requires CleanField(t.date) && CleanField(t.description)
    requires CleanField(t.debitAccount) && CleanField(t.creditAccount)
    requires IntMin <= t.id <= IntMax
    ensures LoadLine(InTransactions, s, TransactionLine(t))
         == Ok(Progress(InTransactions, s.(transactions := s.transactions + [t], nextId := Max(s.nextId + 1, t.id + 1))))
  {
    TransactionRoundTrip(t);
  }

  /** Filing one account and then the rest is filing them all. */
  lemma RestrictStep(s: Snapshot, m: map<string, Account>, keys: seq<string>)
    requires keys != [] && keys[0] in m
    ensures var s1 := s.(accounts := s.accounts[keys[0] := m[keys[0]]]);
      s1.(accounts := s1.accounts + Restrict(m, keys[1..])) == s.(accounts := s.accounts + Restrict(m, keys))
  {
    var s1 := s.(accounts := s.accounts[keys[0] := m[keys[0]]]);
    assert s1.accounts + Restrict(m, keys[1..]) == s.accounts + Restrict(m, keys);
  }

  /** Reading a run of account lines files each account under its code, later lines winning. */
  lemma {:induction false} LoadAccountLines(s: Snapshot, m: map<string, Account>, keys: seq<string>, rest: seq<string>)
    requires forall i :: 0 <= i < |keys| ==> keys[i] in m
    requires CodesMatch(m)
    requires forall k :: k in m ==> CleanField(m[k].code) && CleanField(m[k].name)
    ensures LoadLines(InAccounts, s, AccountLines(m, keys) + rest)
         == LoadLines(InAccounts, s.(accounts := s.accounts + Restrict(m, keys)), rest)
    decreases |keys|
  {
    if keys == [] {
      assert s.(accounts := s.accounts + Restrict(m, keys)) == s;
      assert AccountLines(m, keys) + rest == rest;
    } else {
      var k := keys[0];
      assert AccountLines(m, keys) + rest == [AccountLine(m[k])] + (AccountLines(m, keys[1..]) + rest);
      LoadLinesCons(InAccounts, s, AccountLine(m[k]), AccountLines(m, keys[1..]) + rest);
      LoadAccountLine(s, m[k]);
      var s1 := s.(accounts := s.accounts[k := m[k]]);
      LoadAccountLines(s1, m, keys[1..], rest);
      RestrictStep(s, m, keys);
    }
  }

  /** Appending one transaction and then the rest is appending them all. */
  lemma AppendStep(s: Snapshot, ts: seq<Transaction>)
    requires ts != []
    ensures var s1 := s.(transactions := s.transactions + [ts[0]], nextId := Max(s.nextId + 1, ts[0].id + 1));
      s1.(transactions := s1.transactions + ts[1..], nextId := NextIdAfter(s1.nextId, ts[1..]))
      == s.(transactions := s.transactions + ts, nextId := NextIdAfter(s.nextId, ts))
  {
    assert s.transactions + [ts[0]] + ts[1..] == s.transactions + ts;
  }

  /** Reading a run of transaction lines appends them in order and advances the counter. */
  lemma {:induction false} LoadTransactionLines(s: Snapshot, ts: seq<Transaction>, rest: seq<string>)
    requires forall i :: 0 <= i < |ts| ==> IntMin <= ts[i].id <= IntMax
    requires forall i :: 0 <= i < |ts| ==>
      CleanField(ts[i].date) && CleanField(ts[i].description)
      && CleanField(ts[i].debitAccount) && CleanField(ts[i].creditAccount)
    ensures LoadLines(InTransactions, s, TransactionLines(ts) + rest)
         == LoadLines(InTransactions, s.(transactions := s.transactions + ts, nextId := NextIdAfter(s.nextId, ts)), rest)
    decreases |ts|
  {
    if ts == [] {
      assert s.(transactions := s.transactions + ts, nextId := NextIdAfter(s.nextId, ts)) == s;
      assert TransactionLines(ts) + rest == rest;
    } else {
      var t := ts[0];
      assert TransactionLines(ts) + rest == [TransactionLine(t)] + (TransactionLines(ts[1..]) + rest);
      LoadLinesCons(InTransactions, s, TransactionLine(t), TransactionLines(ts[1..]) + rest);
      LoadTransactionLine(s, t);
      var s1 := s.(transactions := s.transactions + [t], nextId := Max(s.nextId + 1, t.id + 1));
      LoadTransactionLines(s1, ts[1..], rest);
      AppendStep(s, ts);
    }
  }

  /** Every field the data file cannot carry verbatim is excluded. */
  ghost predicate Saveable(s: Snapshot)
  {
    && CodesMatch(s.accounts)
    && (forall k :: k in s.accounts ==> CleanField(s.accounts[k].code) && CleanField(s.accounts[k].name))
    && (forall i :: 0 <= i < |s.transactions| ==> IntMin <= s.transactions[i].id <= IntMax)
    && (forall i :: 0 <= i < |s.transactions| ==>
          CleanField(s.transactions[i].date) && CleanField(s.transactions[i].description)
          && CleanField(s.transactions[i].debitAccount) && CleanField(s.transactions[i].creditAccount))
  }

  /** No line holds the record separator. */
  predicate OneLineEach(lines: seq<string>)
  {
    forall i :: 0 <= i < |lines| ==> '\n' !in lines[i]
  }

  lemma OneLineEachConcat(a: seq<string>, b: seq<string>)
    requires OneLineEach(a) && OneLineEach(b)
    ensures OneLineEach(a + b)
  {
    forall i | 0 <= i < |a + b| ensures '\n' !in (a + b)[i] {
      if i >= |a| { assert (a + b)[i] == b[i - |a|]; }
    }
  }

  /** The account records of a saveable registry are one line each. */
  lemma AccountLinesOneLine(s: Snapshot)
    requires Saveable(s)
    ensures OneLineEach(AccountLines(s.accounts, SortedKeys(s.accounts.Keys)))
  {
    var keys := SortedKeys(s.accounts.Keys);
    var accLines := AccountLines(s.accounts, keys);
    forall i | 0 <= i < |accLines| ensures '\n' !in accLines[i] {
      var a := s.accounts[keys[i]];
      assert accLines[i] == AccountLine(a);
      AccountLineClean(a);
    }
  }

  /** The transaction records of a saveable ledger are one line each. */
  lemma TransactionLinesOneLine(s: Snapshot)
    requires Saveable(s)
    ensures OneLineEach(TransactionLines(s.transactions))
  {
    var txLines := TransactionLines(s.transactions);
    forall i | 0 <= i < |txLines| ensures '\n' !in txLines[i] {
      TransactionLineClean(s.transactions[i]);
    }
  }

  /** No line of a saveable snapshot holds a newline, so the file splits back into them. */
  lemma SaveLinesSplit(s: Snapshot)
    requires Saveable(s)
    ensures Fields(FileText(SaveLines(s)), '\n') == SaveLines(s)
  {
    var accLines := AccountLines(s.accounts, SortedKeys(s.accounts.Keys));
    var txLines := TransactionLines(s.transactions);
    AccountLinesOneLine(s);
    TransactionLinesOneLine(s);
    OneLineEachConcat(["TRANSACTIONS"], txLines);
    OneLineEachConcat(accLines, ["TRANSACTIONS"] + txLines);
    OneLineEachConcat(["ACCOUNTS"], accLines + (["TRANSACTIONS"] + txLines));
    FileTextLines(SaveLines(s));
  }

  /** Loading every account of a registry into an empty one rebuilds it. */
  lemma RestrictAll(m: map<string, Account>)
    ensures map[] + Restrict(m, SortedKeys(m.Keys)) == m
  {
  }

  /** Loading the saved lines into a fresh engine rebuilds the registry and the ledger. */
  lemma LoadSavedLines(s: Snapshot)
    requires Saveable(s)
    ensures LoadLines(BeforeMarker, Snapshot(map[], [], 1), SaveLines(s))
         == Ok(Snapshot(s.accounts, s.transactions, NextIdAfter(1, s.transactions)))
  {
    var keys := SortedKeys(s.accounts.Keys);
    var accLines := AccountLines(s.accounts, keys);
    var txLines := TransactionLines(s.transactions);
    var e := Snapshot(map[], [], 1);
    var e1 := Snapshot(s.accounts, [], 1);
    calc {
      LoadLines(BeforeMarker, e, SaveLines(s));
      LoadLines(BeforeMarker, e, ["ACCOUNTS"] + (accLines + (["TRANSACTIONS"] + txLines)));
      { LoadMarkersAndBlanks(BeforeMarker, e, accLines + (["TRANSACTIONS"] + txLines)); }
      LoadLines(InAccounts, e, accLines + (["TRANSACTIONS"] + txLines));
      { LoadAccountLines(e, s.accounts, keys, ["TRANSACTIONS"] + txLines);
        RestrictAll(s.accounts); }
      LoadLines(InAccounts, e1, ["TRANSACTIONS"] + txLines);
      { LoadMarkersAndBlanks(InAccounts, e1, txLines);
        assert txLines + [] == txLines; }
      LoadLines(InTransactions, e1, txLines + []);
      { LoadTransactionLines(e1, s.transactions, []);
        assert [] + s.transactions == s.transactions; }
      LoadLines(InTransactions, Snapshot(s.accounts, s.transactions, NextIdAfter(1, s.transactions)), []);
    }
  }

  /**
   * Saving and then loading into a fresh engine gives back every account and
   * every transaction; the counter ends where the loader's rule puts it.
   */
  lemma SaveLoadRoundTrip(s: Snapshot)
    requires Saveable(s)
    ensures LoadFile(Snapshot(map[], [], 1), FileText(SaveLines(s)))
         == Ok(Snapshot(s.accounts, s.transactions, NextIdAfter(1, s.transactions)))
  {
    SaveLinesSplit(s);
    LoadSavedLines(s);
  }

  /** Ids that start at or above the counter and strictly increase leave it one past the last. */
  lemma {:induction false} NextIdAfterIncreasing(n: int, ts: seq<Transaction>)
    requires ts != [] && ts[0].id >= n
    requires forall i :: 0 < i < |ts| ==> ts[i - 1].id < ts[i].id
    ensures NextIdAfter(n, ts) == ts[|ts| - 1].id + 1
    decreases |ts|
  {
    if |ts| > 1 {
      assert ts[1..][0] == ts[1];
      NextIdAfterIncreasing(ts[0].id + 1, ts[1..]);
    }
  }

  /** Ids 5 then 2 leave the counter at 7, not at the largest id plus one. */
  lemma NextIdAfterOutOfOrder()
    ensures NextIdAfter(1, [Transaction(5, "", "", "", "", 1), Transaction(2, "", "", "", "", 1)]) == 7
  {
    var ts := [Transaction(5, "", "", "", "", 1), Transaction(2, "", "", "", "", 1)];
    assert ts[1..] == [Transaction(2, "", "", "", "", 1)];
    assert ts[1..][1..] == [];
  }

  /** The least code of a non-empty set of codes: where an in-order walk goes next. */
  method FirstCode(codes: set<string>) returns (code: string)
    requires codes != {}
    ensures IsLeast(code, codes)
  {
    LeastExists(codes);
    code :| IsLeast(code, codes);
  }

  /**
   * The snapshot `loadData` leaves, or the malformed line that stopped it (a
   * non-blank line of the file). A successful load only adds to what was
   * there.
   */
  function LoadFile(s: Snapshot, text: string): (r: Result<Snapshot, string>)
    ensures r.Err? ==> r.error != "" && '\n' !in r.error
    ensures r.Err? ==> exists k :: 0 <= k < |Fields(text, '\n')| && Fields(text, '\n')[k] == r.error
    ensures r.Ok? ==> s.transactions <= r.value.transactions && r.value.nextId >= s.nextId
    ensures r.Ok? ==> s.accounts.Keys <= r.value.accounts.Keys
  {
    LoadLines(BeforeMarker, s, Fields(text, '\n'))
  }

  /** The two report totals the balance sheet prints, and its closing line. */
  datatype BalanceSheet = BalanceSheet(assets: int, liabilities: int, equity: int, liabilitiesAndEquity: int)

  /** The totals the income statement prints. */
  datatype IncomeStatement = IncomeStatement(revenue: int, expense: int, netIncome: int)

  /** `AccountingSystem`: the registry, the ledger and the id counter. */
  class AccountingSystem {
    var accounts: map<string, Account>
    var transactions: seq<Transaction>
    var nextId: int

    ghost predicate Valid()
      reads this
    {
      CodesMatch(accounts) && IdsBelow(transactions, nextId)
    }

    function State(): Snapshot
      reads this
    {
      Snapshot(accounts, transactions, nextId)
    }

    /** An empty engine; the id counter starts at 1. */
    constructor ()
      ensures Valid()
      ensures accounts == map[] && transactions == [] && nextId == 1
    {
      accounts := map[];
      transactions := [];
      nextId := 1;
    }

    /** `addAccount`: refuses a code already in use, otherwise files a zero-balance account. */
    method AddAccount(code: string, name: string, kind: AccountType) returns (status: Status)
      requires Valid()
      modifies this
      ensures Valid()
      ensures transactions == old(transactions) && nextId == old(nextId)
      ensures code in old(accounts) ==> status == DuplicateCode && accounts == old(accounts)
      ensures code !in old(accounts) ==>
        status == Success && accounts == old(accounts)[code := NewAccount(name, code, kind)]
      ensures Total(accounts, Signed) == old(Total(accounts, Signed))
    {
      if code in accounts {
        return DuplicateCode;
      }
      TotalUpdate(accounts, code, NewAccount(name, code, kind), Signed);
      accounts := accounts[code := NewAccount(name, code, kind)];
      status := Success;
    }

    /** `removeAccount`: only an existing account with a balance of exactly zero is erased. */
    method RemoveAccount(code: string) returns (status: Status)
      requires Valid()
      modifies this
      ensures Valid()
      ensures transactions == old(transactions) && nextId == old(nextId)
      ensures code !in old(accounts) ==> status == NotFound && accounts == old(accounts)
      ensures code in old(accounts) && old(accounts)[code].balance != 0 ==>
        status == NonZeroBalance && accounts == old(accounts)
      ensures code in old(accounts) && old(accounts)[code].balance == 0 ==>
        status == Success && accounts == old(accounts) - {code}
      ensures status == Success ==> code !in accounts
      ensures Total(accounts, Signed) == old(Total(accounts, Signed))
    {
      if code !in accounts {
        return NotFound;
      }
      if accounts[code].balance != 0 {
        return NonZeroBalance;
      }
      TotalErase(accounts, code, Signed);
      accounts := accounts - {code};
      status := Success;
    }

    /**
     * `addTransaction`: both codes must exist and the amount must be
     * positive, checked in that order before anything changes; then the
     * debit and the credit are posted and one transaction is appended with
     * the counter's id and the two accounts' names.
     */
    method AddTransaction(description: string, debitCode: string, creditCode: string, amount: int, date: string)
      returns (status: Status)
      requires Valid()
      modifies this
      ensures Valid()
      ensures status == (if debitCode !in old(accounts) then UnknownDebitAccount
                         else if creditCode !in old(accounts) then UnknownCreditAccount
                         else if amount <= 0 then InvalidAmount
                         else Success)
      ensures status != Success ==>
        accounts == old(accounts) && transactions == old(transactions) && nextId == old(nextId)
      ensures status == Success ==>
        && accounts == Posted(old(accounts), debitCode, creditCode, amount)
        && transactions == old(transactions) + [Transaction(old(nextId), date, description,
             old(accounts)[debitCode].name, old(accounts)[creditCode].name, amount)]
        && nextId == old(nextId) + 1
      ensures Total(accounts, Signed) == old(Total(accounts, Signed))
    {
      if debitCode !in accounts {
        return UnknownDebitAccount;
      }
      if creditCode !in accounts {
        return UnknownCreditAccount;
      }
      if amount <= 0 {
        return InvalidAmount;
      }
      PostingKeepsTrialBalance(accounts, debitCode, creditCode, amount);
      accounts := accounts[debitCode := accounts[debitCode].Debit(amount)];
      accounts := accounts[creditCode := accounts[creditCode].Credit(amount)];
      var t := Transaction(nextId, date, description, accounts[debitCode].name, accounts[creditCode].name, amount);
      nextId := nextId + 1;
      transactions := transactions + [t];
      status := Success;
    }

    /** One report loop: the sum of the balances of the accounts of one type. */
    method SumOfType(kind: AccountType) returns (total: int)
      ensures total == Total(accounts, OfType(kind))
    {
      total := 0;
      var rest := accounts.Keys;
      while rest != {}
        invariant rest <= accounts.Keys
        invariant total + SumOver(accounts, rest, OfType(kind)) == Total(accounts, OfType(kind))
        decreases rest
      {
        var code :| code in rest;
        SumOverRemove(accounts, rest, OfType(kind), code);
        if accounts[code].kind == kind {
          total := total + accounts[code].balance;
        }
        rest := rest - {code};
      }
    }

    /** `generateBalanceSheet`: the three subtotals and liabilities plus equity. */
    method GenerateBalanceSheet() returns (sheet: BalanceSheet)
      ensures sheet.assets == Total(accounts, OfType(Asset))
      ensures sheet.liabilities == Total(accounts, OfType(Liability))
      ensures sheet.equity == Total(accounts, OfType(Equity))
      ensures sheet.liabilitiesAndEquity == sheet.liabilities + sheet.equity
    {
      var assets := SumOfType(Asset);
      var liabilities := SumOfType(Liability);
      var equity := SumOfType(Equity);
      sheet := BalanceSheet(assets, liabilities, equity, liabilities + equity);
    }

    /** `generateIncomeStatement`: revenue, expenses and their difference. */
    method GenerateIncomeStatement() returns (statement: IncomeStatement)
      ensures statement.revenue == Total(accounts, OfType(Revenue))
      ensures statement.expense == Total(accounts, OfType(Expense))
      ensures statement.netIncome == statement.revenue - statement.expense
    {
      var revenue := SumOfType(Revenue);
      var expense := SumOfType(Expense);
      statement := IncomeStatement(revenue, expense, revenue - expense);
    }

    /** `saveData`: the text written to the data file, accounts in ascending code order. */
    method SaveData() returns (text: string)
      ensures text == FileText(SaveLines(State()))
    {
      var accountLines := AccountSection();
      var transactionLines := TransactionSection();
      text := FileText(["ACCOUNTS"] + (accountLines + (["TRANSACTIONS"] + transactionLines)));
    }

    /** The account records `saveData` writes, walking the registry in ascending code order. */
    method AccountSection() returns (lines: seq<string>)
      ensures lines == AccountLines(accounts, SortedKeys(accounts.Keys))
    {
      var m := accounts;
      ghost var order := SortedKeys(m.Keys);
      lines := [];
      var rest := m.Keys;
      ghost var done: seq<string> := [];
      while rest != {}
        invariant WalkedSoFar(m, order, done, rest)
        invariant lines == AccountLines(m, done)
        decreases rest
      {
        var code := FirstCode(rest);
        WalkStep(m, order, done, rest, code);
        lines := lines + [AccountLine(m[code])];
        done := done + [code];
        rest := rest - {code};
      }
      assert |SortedKeys(rest)| == 0;
      assert done == order;
    }

    /** The transaction records `saveData` writes, in ledger order. */
    method TransactionSection() returns (lines: seq<string>)
      ensures lines == TransactionLines(transactions)
    {
      var ts := transactions;
      lines := [];
      var i := 0;
      while i < |ts|
        invariant 0 <= i <= |ts|
        invariant lines == TransactionLines(ts[..i])
      {
        TransactionLinesSnoc(ts, i);
        lines := lines + [TransactionLine(ts[i])];
        i := i + 1;
      }
      assert ts[..i] == ts;
    }

    /**
     * `loadData`: with no data file nothing changes; otherwise the lines are
     * read in order, switching section on the two markers, skipping blank
     * lines and lines before any marker, filing accounts by code (a repeated
     * code overwrites) and appending transactions. A malformed record leaves
     * the engine as it was.
     */
    method LoadData(file: Option<string>) returns (status: Status)
      requires Valid()
      modifies this
      ensures Valid()
      ensures file.None? ==> status == NoDataFile && State() == old(State())
      ensures file.Some? && LoadFile(old(State()), file.value).Ok? ==>
        status == Success && State() == LoadFile(old(State()), file.value).value
      ensures file.Some? && LoadFile(old(State()), file.value).Err? ==>
        status == CorruptRecord && State() == old(State())
    {
      if file.None? {
        return NoDataFile;
      }
      var lines := Fields(file.value, '\n');
      var inAccounts, inTransactions := false, false;
      ghost var sec := BeforeMarker;
      var loaded := State();
      var i := 0;
      while i < |lines|
        invariant 0 <= i <= |lines|
        invariant sec == (if inAccounts then InAccounts else if inTransactions then InTransactions else BeforeMarker)
        invariant !(inAccounts && inTransactions)
        invariant LoadLines(sec, loaded, lines[i..]) == LoadFile(old(State()), file.value)
        invariant State() == old(State())
      {
        var line := lines[i];
        ghost var step := LoadLine(sec, loaded, line);
        LoadLinesAt(sec, loaded, lines, i);
        if line == "ACCOUNTS" {
          inAccounts, inTransactions := true, false;
          sec := InAccounts;
        } else if line == "TRANSACTIONS" {
          inAccounts, inTransactions := false, true;
          sec := InTransactions;
        } else if inAccounts && line != "" {
          var parsed := ParseAccount(line);
          if parsed.None? {
            return CorruptRecord;
          }
          var a := parsed.value;
          loaded := loaded.(accounts := loaded.accounts[a.code := a]);
        } else if inTransactions && line != "" {
          var parsed := ParseTransaction(line);
          if parsed.None? {
            return CorruptRecord;
          }
          var t := parsed.value;
          loaded := loaded.(transactions := loaded.transactions + [t], nextId := Max(loaded.nextId + 1, t.id + 1));
        }
        assert step == Ok(Progress(sec, loaded));
        i := i + 1;
      }
      assert lines[i..] == [];
      LoadKeepsInvariants(BeforeMarker, old(State()), lines);
      accounts, transactions, nextId := loaded.accounts, loaded.transactions, loaded.nextId;
      status := Success;
    }
  }
}

=== FILE: ledger_accounts.dfy ===
/**
 * The ledger's entities: the five account categories, accounts with their
 * debit/credit polarity, recorded transactions, and sums of balances over
 * the account registry (the totals the two reports print).
 *
 * Money is an integer count of minor units (fen), so that the exact-zero
 * test for deleting an account and the text round trip can be stated.
 */
module Accounts {
  import opened Wrappers

  /** The categories, in declaration order; the position is the stored ordinal. */
  datatype AccountType = Asset | Liability | Equity | Revenue | Expense

  /** `static_cast<int>(type)`: the zero-based position in the declaration. */
  function Ordinal(t: AccountType): (n: nat)
    ensures n < 5
  {
    match t
    case Asset => 0
    case Liability => 1
    case Equity => 2
    case Revenue => 3
    case Expense => 4
  }

  /** `static_cast<AccountType>(n)`, defined only for the five declared positions. */
  function TypeOfOrdinal(n: int): (r: Option<AccountType>)
    ensures r.Some? <==> 0 <= n < 5
    ensures r.Some? ==> Ordinal(r.value) == n
  {
    if n == 0 then Some(Asset)
    else if n == 1 then Some(Liability)
    else if n == 2 then Some(Equity)
    else if n == 3 then Some(Revenue)
    else if n == 4 then Some(Expense)
    else None
  }

  /** Assets and expenses grow on the debit side; the other three on the credit side. */
  predicate DebitNormal(t: AccountType) { t == Asset || t == Expense }

  datatype Account = Account(name: string, code: string, kind: AccountType, balance: int)
  {
    /** Apply a debit of `amount` to this account. */
    function Debit(amount: int): (a: Account)
      ensures a.name == name && a.code == code && a.kind == kind
      ensures kind in {Asset, Expense} ==> a.balance == balance + amount
      ensures kind in {Liability, Equity, Revenue} ==> a.balance == balance - amount
    {
      if kind == Asset || kind == Expense then this.(balance := balance + amount)
      else this.(balance := balance - amount)
    }

    /** Apply a credit of `amount` to this account. */
    function Credit(amount: int): (a: Account)
      ensures a.name == name && a.code == code && a.kind == kind
      ensures kind in {Liability, Equity, Revenue} ==> a.balance == balance + amount
      ensures kind in {Asset, Expense} ==> a.balance == balance - amount
    {
      if kind == Liability || kind == Equity || kind == Revenue then this.(balance := balance + amount)
      else this.(balance := balance - amount)
    }
  }

  /** `Account(n, c, t)`: a fresh account starts at a zero balance. */
  function NewAccount(name: string, code: string, kind: AccountType): (a: Account)
    ensures a.name == name && a.code == code && a.kind == kind && a.balance == 0
  {
    Account(name, code, kind, 0)
  }

  /** A debit and a credit of the same amount cancel, in either order. */
  lemma DebitCreditCancel(a: Account, amount: int)
    ensures a.Debit(amount).Credit(amount) == a
    ensures a.Credit(amount).Debit(amount) == a
  {
  }

  /**
   * A recorded transaction: the two accounts are remembered by their names
   * at recording time, not by code.
   */
  datatype Transaction = Transaction(
    id: int,
    date: string,
    description: string,
    debitAccount: string,
    creditAccount: string,
    amount: int)

  // ---------------------------------------------------------------------
  // Sums of balances over the registry
  // ---------------------------------------------------------------------

  /**
   * What an account contributes to a sum: its balance if it is of the given
   * type (a report subtotal), or its balance signed by its normal side (the
   * trial balance: debit-normal balances minus credit-normal ones).
   */
  datatype Measure = OfType(t: AccountType) | Signed

  function Weight(a: Account, w: Measure): (r: int)
    ensures w.OfType? ==> r == (if a.kind == w.t then a.balance else 0)
    ensures w == Signed ==> r == a.balance || r == -a.balance
    ensures w == Signed && a.balance > 0 ==> (r > 0 <==> DebitNormal(a.kind))
  {
    match w
    case OfType(t) => if a.kind == t then a.balance else 0
    case Signed => if DebitNormal(a.kind) then a.balance else -a.balance
  }

  /** A debit moves the trial balance up by the amount, a credit down by it. */
  lemma SignedDebitCredit(a: Account, amount: int)
    ensures Weight(a.Debit(amount), Signed) == Weight(a, Signed) + amount
    ensures Weight(a.Credit(amount), Signed) == Weight(a, Signed) - amount
  {
  }

  /** The sum of the weights of the accounts under the given keys. */
  ghost function SumOver(m: map<string, Account>, keys: set<string>, w: Measure): (r: int)
    requires keys <= m.Keys
    ensures (forall k :: k in keys ==> Weight(m[k], w) == 0) ==> r == 0
    decreases keys
  {
    if keys == {} then 0
    else
      var k :| k in keys;
      Weight(m[k], w) + SumOver(m, keys - {k}, w)
  }

  /** The sum of the weights of every account in the registry. */
  ghost function Total(m: map<string, Account>, w: Measure): (r: int)
    ensures w.OfType? && (forall k :: k in m ==> m[k].kind != w.t) ==> r == 0
    ensures w.OfType? && (forall k :: k in m && m[k].kind == w.t ==> m[k].balance >= 0) ==> r >= 0
  {
    SumOverSign(m, m.Keys, w);
    SumOver(m, m.Keys, w)
  }

  /** A sum keeps the sign all its contributions share. */
  lemma {:induction false} SumOverSign(m: map<string, Account>, keys: set<string>, w: Measure)
    requires keys <= m.Keys
    ensures (forall k :: k in keys ==> Weight(m[k], w) >= 0) ==> SumOver(m, keys, w) >= 0
    ensures (forall k :: k in keys ==> Weight(m[k], w) <= 0) ==> SumOver(m, keys, w) <= 0
    decreases keys
  {
    if keys != {} {
      var k :| k in keys && SumOver(m, keys, w) == Weight(m[k], w) + SumOver(m, keys - {k}, w);
      SumOverSign(m, keys - {k}, w);
    }
  }

  /** Any key may be taken out first: the sum does not depend on the order. */
  lemma {:induction false} SumOverRemove(m: map<string, Account>, keys: set<string>, w: Measure, k: string)
    requires keys <= m.Keys && k in keys
    ensures SumOver(m, keys, w) == Weight(m[k], w) + SumOver(m, keys - {k}, w)
    decreases keys
  {
    var j :| j in keys && SumOver(m, keys, w) == Weight(m[j], w) + SumOver(m, keys - {j}, w);
    if j != k {
      SumOverRemove(m, keys - {j}, w, k);
      SumOverRemove(m, keys - {k}, w, j);
      assert keys - {j} - {k} == keys - {k} - {j};
    }
  }

  /** Two registries that agree on the keys summed give the same sum. */
  lemma {:induction false} SumOverAgree(m1: map<string, Account>, m2: map<string, Account>, keys: set<string>, w: Measure)
    requires keys <= m1.Keys && keys <= m2.Keys
    requires forall k :: k in keys ==> m1[k] == m2[k]
    ensures SumOver(m1, keys, w) == SumOver(m2, keys, w)
    decreases keys
  {
    if keys != {} {
      var k :| k in keys;
      SumOverRemove(m1, keys, w, k);
      SumOverRemove(m2, keys, w, k);
      SumOverAgree(m1, m2, keys - {k}, w);
    }
  }

  /** Inserting or replacing one entry changes the total by the difference of its weights. */
  lemma TotalUpdate(m: map<string, Account>, k: string, a: Account, w: Measure)
    ensures Total(m[k := a], w) == Total(m, w) - (if k in m then Weight(m[k], w) else 0) + Weight(a, w)
  {
    var m' := m[k := a];
    SumOverRemove(m', m'.Keys, w, k);
    SumOverAgree(m', m, m'.Keys - {k}, w);
    if k in m {
      SumOverRemove(m, m.Keys, w, k);
      assert m'.Keys - {k} == m.Keys - {k};
    } else {
      assert m'.Keys - {k} == m.Keys;
    }
  }

  /** Erasing an entry takes its weight out of the total. */
  lemma TotalErase(m: map<string, Account>, k: string, w: Measure)
    requires k in m
    ensures Total(m - {k}, w) == Total(m, w) - Weight(m[k], w)
  {
    var m' := m - {k};
    SumOverRemove(m, m.Keys, w, k);
    assert m'.Keys == m.Keys - {k};
    SumOverAgree(m', m, m'.Keys, w);
  }

  /**
   * The trial balance is the debit-normal subtotals (assets, expenses) less
   * the credit-normal ones (liabilities, equity, revenue).
   */
  lemma {:induction false} SignedIsSubtotals(m: map<string, Account>, keys: set<string>)
    requires keys <= m.Keys
    ensures SumOver(m, keys, Signed)
         == SumOver(m, keys, OfType(Asset)) + SumOver(m, keys, OfType(Expense))
          - SumOver(m, keys, OfType(Liability)) - SumOver(m, keys, OfType(Equity))
          - SumOver(m, keys, OfType(Revenue))
    decreases keys
  {
    if keys != {} {
      var k :| k in keys;
      SumOverRemove(m, keys, Signed, k);
      SumOverRemove(m, keys, OfType(Asset), k);
      SumOverRemove(m, keys, OfType(Expense), k);
      SumOverRemove(m, keys, OfType(Liability), k);
      SumOverRemove(m, keys, OfType(Equity), k);
      SumOverRemove(m, keys, OfType(Revenue), k);
      SignedIsSubtotals(m, keys - {k});
    }
  }

  /**
   * The accounting equation: while the trial balance is zero, assets equal
   * liabilities plus equity plus the net income (revenue less expenses).
   */
  lemma AccountingEquation(m: map<string, Account>)
    requires Total(m, Signed) == 0
    ensures Total(m, OfType(Asset))
         == Total(m, OfType(Liability)) + Total(m, OfType(Equity))
          + (Total(m, OfType(Revenue)) - Total(m, OfType(Expense)))
  {
    SignedIsSubtotals(m, m.Keys);
  }
}

=== FILE: ledger_codec.dfy ===
/**
 * The one-record-per-line text form of accounts and transactions:
 * comma-joined fields with no escaping, read back with a getline split.
 */
module LedgerCodec {
  import opened Wrappers
  import opened Text
  import opened Accounts

  /**
   * A field that survives the format: it holds no comma (the field
   * separator) and no newline (the record separator).
   */
  predicate CleanField(s: string) { ',' !in s && '\n' !in s }

  /** A record line holds the field delimiter, so it is neither blank nor a section marker. */
  predicate IsRecord(line: string) { ',' in line }

  /**
   * `Account::toFileString`: code, name, type ordinal, balance. The line
   * opens with the code and a comma.
   */
  function AccountLine(a: Account): (line: string)
    ensures |a.code| < |line| && line[..|a.code|] == a.code && line[|a.code|] == ','
    ensures IsRecord(line)
  {
    Join([a.code, a.name, IntToString(Ordinal(a.kind)), IntToString(a.balance)], ',')
  }

  /**
   * `Transaction::toFileString`: id, date, description, debit name, credit
   * name, amount.
   */
  function TransactionLine(t: Transaction): (line: string)
    ensures IsRecord(line)
  {
    Join([IntToString(t.id), t.date, t.description, t.debitAccount, t.creditAccount,
          IntToString(t.amount)], ',')
  }

  /**
   * `Account::fromFileString`. The source indexes the first four fields
   * without checking them and converts with `stoi`/`stod`; a line with too
   * few fields, a non-numeric field or an ordinal outside the enumeration is
   * reported here as `None` (a corrupt record). Fields past the fourth are
   * ignored, as in the source.
   */
  function ParseAccount(line: string): (r: Option<Account>)
    ensures r.Some? ==> |Fields(line, ',')| >= 4
    ensures r.Some? ==> r.value.code == Fields(line, ',')[0] && r.value.name == Fields(line, ',')[1]
  {
    var parts := Fields(line, ',');
    if |parts| < 4 then None
    else
      match (Stoi(parts[2]), ParseLeadingInt(parts[3]))
      case (Some(n), Some(balance)) =>
        (match TypeOfOrdinal(n)
         case Some(kind) => Some(Account(parts[1], parts[0], kind, balance))
         case None => None)
      case _ => None
  }

  /**
   * `Transaction::fromFileString`, with the same treatment of malformed
   * lines; the id goes through `stoi`, so it must fit a 32-bit `int`.
   */
  function ParseTransaction(line: string): (r: Option<Transaction>)
    ensures r.Some? ==> |Fields(line, ',')| >= 6
    ensures r.Some? ==> IntMin <= r.value.id <= IntMax
    ensures r.Some? ==> r.value.date == Fields(line, ',')[1] && r.value.description == Fields(line, ',')[2]
  {
    var parts := Fields(line, ',');
    if |parts| < 6 then None
    else
      match (Stoi(parts[0]), ParseLeadingInt(parts[5]))
      case (Some(id), Some(amount)) =>
        Some(Transaction(id, parts[1], parts[2], parts[3], parts[4], amount))
      case _ => None
  }

  lemma IntToStringClean(i: int)
    ensures CleanField(IntToString(i))
  {
    if i < 0 {
      assert IntToString(i) == ['-'] + NatToString(-i);
    }
  }

  lemma AccountLineClean(a: Account)
    requires CleanField(a.code) && CleanField(a.name)
    ensures '\n' !in AccountLine(a)
  {
    IntToStringClean(Ordinal(a.kind));
    IntToStringClean(a.balance);
    JoinNoNewline([a.code, a.name, IntToString(Ordinal(a.kind)), IntToString(a.balance)]);
  }

  lemma TransactionLineClean(t: Transaction)
    requires CleanField(t.date) && CleanField(t.description)
    requires CleanField(t.debitAccount) && CleanField(t.creditAccount)
    ensures '\n' !in TransactionLine(t)
  {
    IntToStringClean(t.id);
    IntToStringClean(t.amount);
    JoinNoNewline([IntToString(t.id), t.date, t.description, t.debitAccount, t.creditAccount,
                   IntToString(t.amount)]);
  }

  lemma {:induction false} JoinNoNewline(fields: seq<string>)
    requires forall i :: 0 <= i < |fields| ==> '\n' !in fields[i]
    ensures '\n' !in Join(fields, ',')
    decreases |fields|
  {
    if |fields| > 1 {
      JoinNoNewline(fields[1..]);
    }
  }

  /** An account whose code and name hold no comma reads back exactly. */
  lemma AccountRoundTrip(a: Account)
    requires CleanField(a.code) && CleanField(a.name)
    ensures ParseAccount(AccountLine(a)) == Some(a)
  {
    var ord := IntToString(Ordinal(a.kind));
    var bal := IntToString(a.balance);
    var fields := [a.code, a.name, ord, bal];
    IntToStringClean(Ordinal(a.kind));
    IntToStringClean(a.balance);
    FieldsJoin(fields, ',');
    StoiIntToString(Ordinal(a.kind));
    ParseIntToString(a.balance);
  }

  /**
   * A transaction whose text fields hold no comma and whose id fits a
   * 32-bit `int` reads back exactly.
   */
  lemma TransactionRoundTrip(t: Transaction)
    requires CleanField(t.date) && CleanField(t.description)
    requires CleanField(t.debitAccount) && CleanField(t.creditAccount)
    requires IntMin <= t.id <= IntMax
    ensures ParseTransaction(TransactionLine(t)) == Some(t)
  {
    var fields := [IntToString(t.id), t.date, t.description, t.debitAccount, t.creditAccount,
                   IntToString(t.amount)];
    IntToStringClean(t.id);
    IntToStringClean(t.amount);
    FieldsJoin(fields, ',');
    StoiIntToString(t.id);
    ParseIntToString(t.amount);
  }
}

=== FILE: snake.dfy ===
/**
 * The snake game's step: a snake of grid points moving one cell per tick in
 * its direction, dying on the walls or on itself, growing and scoring when
 * it eats, and turning on arrow-key escape sequences, never straight back.
 */
module Snake {
  import opened Wrappers

  newtype byte = x: int | 0 <= x < 256

  datatype Point = Point(x: int, y: int)

  /** The four headings, in declaration order. */
  datatype Direction = Up | Down | Left | Right

  /** The heading that would take the snake straight back. */
  function Opposite(d: Direction): (r: Direction)
    ensures r != d
  {
    match d
    case Up => Down
    case Down => Up
    case Left => Right
    case Right => Left
  }

  lemma OppositeInvolution(d: Direction)
    ensures Opposite(Opposite(d)) == d
  {
  }

  /** The cell next to `p` in direction `d` (`y` grows downwards). */
  function Step(p: Point, d: Direction): (q: Point)
    ensures (q.x == p.x && (q.y == p.y - 1 || q.y == p.y + 1)) || (q.y == p.y && (q.x == p.x - 1 || q.x == p.x + 1))
  {
    match d
    case Up => Point(p.x, p.y - 1)
    case Down => Point(p.x, p.y + 1)
    case Left => Point(p.x - 1, p.y)
    case Right => Point(p.x + 1, p.y)
  }

  /** A step in the opposite direction comes straight back. */
  lemma StepBack(p: Point, d: Direction)
    ensures Step(Step(p, d), Opposite(d)) == p
  {
  }

  /** The escape sequence an arrow key sends: ESC, `[`, then `A` to `D`. */
  function ArrowKeySequence(d: Direction): seq<byte>
  {
    [27, 91, match d case Up => 65 case Down => 66 case Right => 67 case Left => 68]
  }

  /** The heading an input read asks for, if it is exactly one arrow key. */
  function ArrowKey(input: seq<byte>): (r: Option<Direction>)
    ensures r.Some? ==> |input| == 3 && input[0] == 27 && input[1] == 91
    ensures r.Some? <==> (input == ArrowKeySequence(Up) || input == ArrowKeySequence(Down)
                          || input == ArrowKeySequence(Right) || input == ArrowKeySequence(Left))
  {
    if |input| == 3 && input[0] == 27 && input[1] == 91 then
      if input[2] == 65 then Some(Up)
      else if input[2] == 66 then Some(Down)
      else if input[2] == 67 then Some(Right)
      else if input[2] == 68 then Some(Left)
      else None
    else None
  }

  /** Each arrow key's sequence reads back as that key. */
  lemma ArrowKeyRoundTrip(d: Direction)
    ensures ArrowKey(ArrowKeySequence(d)) == Some(d)
  {
  }

  /** The heading after an input: an arrow key, unless it would reverse the snake. */
  function Turn(current: Direction, input: seq<byte>): (d: Direction)
    ensures d != Opposite(current)
    ensures ArrowKey(input).None? ==> d == current
    ensures ArrowKey(input).Some? && ArrowKey(input).value != Opposite(current) ==> d == ArrowKey(input).value
  {
    match ArrowKey(input)
    case Some(k) => if k == Opposite(current) then current else k
    case None => current
  }

  /** The snake: its cells from head to tail, and its heading. */
  datatype Snake = Snake(body: seq<Point>, direction: Direction)

  /** `Game`: the board size, the snake, the food, the score and the end flag. */
  class Game {
    var width: int
    var height: int
    var snake: Snake
    var food: Point
    var score: int
    var gameOver: bool

    ghost predicate OnBoard(p: Point)
      reads this
    {
      0 <= p.x < width && 0 <= p.y < height
    }

    /** No free cell is left for food. */
    ghost predicate BoardFull()
      reads this
    {
      forall x, y :: 0 <= x < width && 0 <= y < height ==> Point(x, y) in snake.body
    }

    /**
     * The snake is one cell longer than the score, lies on the board and
     * never crosses itself; the food is on the board and off the snake,
     * unless there was no free cell to put it on.
     */
    ghost predicate Valid()
      reads this
    {
      && width > 0 && height > 0
      && score >= 0 && |snake.body| == score + 1
      && (forall i :: 0 <= i < |snake.body| ==> OnBoard(snake.body[i]))
      && (forall i, j :: 0 <= i < j < |snake.body| ==> snake.body[i] != snake.body[j])
      && OnBoard(food)
      && (food !in snake.body || BoardFull())
    }

    /**
     * `NewGame`: a one-cell snake in the middle of the board heading right,
     * then food. The random draw needs a board at least one cell wide and high.
     */
    constructor(width: int, height: int)
      requires width > 0 && height > 0
      ensures Valid()
      ensures this.width == width && this.height == height
      ensures snake == Snake([Point(width / 2, height / 2)], Right)
      ensures score == 0 && !gameOver
    {
      this.width := width;
      this.height := height;
      snake := Snake([Point(width / 2, height / 2)], Right);
      food := Point(0, 0);
      score := 0;
      gameOver := false;
      new;
      GenerateFood();
    }

    /**
     * `generateFood`: a cell drawn at random until it is off the snake. The
     * draw is any free cell; with none left the source draws forever, and
     * here the food stays where it was.
     */
    method GenerateFood()
      modifies this
      ensures (exists x, y :: 0 <= x < width && 0 <= y < height && Point(x, y) !in snake.body) ==>
        OnBoard(food) && food !in snake.body
      ensures !(exists x, y :: 0 <= x < width && 0 <= y < height && Point(x, y) !in snake.body) ==>
        food == old(food)
      ensures width == old(width) && height == old(height) && snake == old(snake)
      ensures score == old(score) && gameOver == old(gameOver)
    {
      if exists x, y :: 0 <= x < width && 0 <= y < height && Point(x, y) !in snake.body {
        var x, y :| 0 <= x < width && 0 <= y < height && Point(x, y) !in snake.body;
        food := Point(x, y);
      }
    }

    /**
     * `Update`: one tick. Nothing once the game is over. The head moves one
     * cell; off the board or onto the snake the game ends and nothing else
     * changes. Otherwise the new head is prepended; on the food the snake
     * keeps its tail, scores and gets new food, else it drops its tail.
     */
    method Update()
      requires Valid()
      modifies this
      ensures Valid()
      ensures width == old(width) && height == old(height) && snake.direction == old(snake.direction)
      ensures old(gameOver) ==> gameOver && snake == old(snake) && score == old(score) && food == old(food)
      ensures !old(gameOver) ==>
        var head := Step(old(snake.body[0]), old(snake.direction));
        if !OnBoard(head) || head in old(snake.body) then
          gameOver && snake == old(snake) && score == old(score) && food == old(food)
        else if head == old(food) then
          !gameOver && snake.body == [head] + old(snake.body) && score == old(score) + 1
        else
          !gameOver && snake.body == [head] + old(snake.body)[..|old(snake.body)| - 1]
          && score == old(score) && food == old(food)
    {
      if gameOver {
        return;
      }
      var head := snake.body[0];
      var newHead := Step(head, snake.direction);
      if newHead.x < 0 || newHead.x >= width || newHead.y < 0 || newHead.y >= height {
        gameOver := true;
        return;
      }
      for i := 0 to |snake.body|
        invariant forall k :: 0 <= k < i ==> snake.body[k] != newHead
        invariant unchanged(this)
      {
        if newHead == snake.body[i] {
          gameOver := true;
          return;
        }
      }
      ghost var before := snake.body;
      snake := snake.(body := [newHead] + snake.body);
      if newHead == food {
        score := score + 1;
        GrownStaysValid(before, newHead);
        GenerateFood();
      } else {
        snake := snake.(body := snake.body[..|snake.body| - 1]);
        MovedStaysValid(before, newHead);
      }
    }

    /** Growing onto a free cell keeps the snake on the board and uncrossed. */
    lemma GrownStaysValid(before: seq<Point>, head: Point)
      requires OnBoard(head) && head !in before
      requires forall i :: 0 <= i < |before| ==> OnBoard(before[i])
      requires forall i, j :: 0 <= i < j < |before| ==> before[i] != before[j]
      ensures var after := [head] + before;
        && (forall i :: 0 <= i < |after| ==> OnBoard(after[i]))
        && (forall i, j :: 0 <= i < j < |after| ==> after[i] != after[j])
    {
      var after := [head] + before;
      forall i, j | 0 <= i < j < |after| ensures after[i] != after[j] {
        assert after[j] == before[j - 1];
        if i > 0 {
          assert after[i] == before[i - 1];
        }
      }
    }

    /** Moving onto a free cell keeps the snake on the board and uncrossed. */
    lemma MovedStaysValid(before: seq<Point>, head: Point)
      requires OnBoard(head) && head !in before && before != []
      requires forall i :: 0 <= i < |before| ==> OnBoard(before[i])
      requires forall i, j :: 0 <= i < j < |before| ==> before[i] != before[j]
      ensures var after := ([head] + before)[..|before|];
        && (forall i :: 0 <= i < |after| ==> OnBoard(after[i]))
        && (forall i, j :: 0 <= i < j < |after| ==> after[i] != after[j])
        && (forall p :: p in after ==> p == head || p in before)
    {
      GrownStaysValid(before, head);
    }

    /**
     * `HandleInput`: nothing once the game is over; an arrow key turns the
     * snake unless it points straight back; any other input is ignored.
     */
    method HandleInput(input: seq<byte>)
      modifies this
      ensures snake.direction == (if old(gameOver) then old(snake.direction) else Turn(old(snake.direction), input))
      ensures !old(gameOver) ==> snake.direction != Opposite(old(snake.direction))
      ensures snake.body == old(snake.body) && food == old(food) && score == old(score) && gameOver == old(gameOver)
      ensures width == old(width) && height == old(height)
    {
      if gameOver {
        return;
      }
      if |input| == 3 && input[0] == 27 && input[1] == 91 {
        if input[2] == 65 {
          if snake.direction != Down { snake := snake.(direction := Up); }
        } else if input[2] == 66 {
          if snake.direction != Up { snake := snake.(direction := Down); }
        } else if input[2] == 67 {
          if snake.direction != Left { snake := snake.(direction := Right); }
        } else if input[2] == 68 {
          if snake.direction != Right { snake := snake.(direction := Left); }
        }
      }
    }
  }
}

=== FILE: text.dfy ===
/**
 * Text helpers of the ledger's line format: decimal rendering of integers
 * (`to_string`), the lenient leading-integer parse of `stoi`, splitting a
 * line on a delimiter the way a `getline(ss, item, ',')` loop does, and the
 * byte-wise ordering `std::map<std::string, _>` keeps its keys in.
 */
module Text {
  import opened Wrappers

  // ---------------------------------------------------------------------
  // Decimal digits
  // ---------------------------------------------------------------------

  predicate IsDigit(c: char) { '0' <= c <= '9' }

  function DigitValue(c: char): (d: nat)
    requires IsDigit(c)
    ensures d < 10
  {
    (c as int) - ('0' as int)
  }

  function DigitChar(d: nat): (c: char)
    requires d < 10
    ensures IsDigit(c) && DigitValue(c) == d
  {
    ((d + '0' as int) as char)
  }

  predicate AllDigits(s: string) { forall i :: 0 <= i < |s| ==> IsDigit(s[i]) }

  /** The number a run of decimal digits denotes, most significant first. */
  function DigitsValue(s: string): nat
    requires AllDigits(s)
  {
    if s == [] then 0 else DigitsValue(s[..|s| - 1]) * 10 + DigitValue(s[|s| - 1])
  }

  /** Decimal rendering of a natural number, without leading zeros. */
  function NatToString(n: nat): (s: string)
    ensures s != [] && AllDigits(s)
    decreases n
  {
    if n < 10 then [DigitChar(n)] else NatToString(n / 10) + [DigitChar(n % 10)]
  }

  /** `std::to_string` of an integer: a minus sign for negatives, then the digits. */
  function IntToString(i: int): (s: string)
    ensures s != []
    ensures IsDigit(s[0]) || s[0] == '-'
  {
    if i < 0 then "-" + NatToString(-i) else NatToString(i)
  }

  lemma {:induction false} NatToStringValue(n: nat)
    ensures DigitsValue(NatToString(n)) == n
    decreases n
  {
    var s := NatToString(n);
    if n >= 10 {
      NatToStringValue(n / 10);
      assert s[..|s| - 1] == NatToString(n / 10);
    }
  }

  // ---------------------------------------------------------------------
  // The leading-integer parse of stoi
  // ---------------------------------------------------------------------

  /** The characters `isspace` accepts in the "C" locale. */
  predicate IsCSpace(c: char)
  {
    c == ' ' || c == '\t' || c == '\n' || c == '\U{B}' || c == '\U{C}' || c == '\r'
  }

  /** Length of the run of decimal digits that starts `s`. */
  function DigitRun(s: string): (n: nat)
    ensures n <= |s| && AllDigits(s[..n])
    ensures n < |s| ==> !IsDigit(s[n])
  {
    if s != [] && IsDigit(s[0]) then
      var n := 1 + DigitRun(s[1..]);
      assert s[..n] == [s[0]] + s[1..][..n - 1];
      n
    else 0
  }

  /**
   * What `stoi`/`stod` read from the start of a field: leading white space
   * is skipped, then an optional sign, then one or more digits; whatever
   * follows the digits is ignored. No digits at all is a failure (the
   * library throws `invalid_argument`).
   */
  function ParseLeadingInt(s: string): (r: Option<int>)
    ensures s == [] ==> r.None?
    ensures s != [] && IsDigit(s[0]) ==> r.Some? && r.value >= 0
    ensures s != [] && !IsCSpace(s[0]) && !IsDigit(s[0]) && s[0] != '-' && s[0] != '+' ==> r.None?
    decreases |s|
  {
    if s != [] && IsCSpace(s[0]) then ParseLeadingInt(s[1..])
    else
      var neg := s != [] && s[0] == '-';
      var body := if s != [] && (s[0] == '-' || s[0] == '+') then s[1..] else s;
      var n := DigitRun(body);
      if n == 0 then None
      else
        var v: int := DigitsValue(body[..n]);
        Some(if neg then -v else v)
  }

  const IntMin: int := -0x8000_0000
  const IntMax: int := 0x7FFF_FFFF

  /** `std::stoi`: the leading-integer parse, failing outside the 32-bit `int` range. */
  function Stoi(s: string): (r: Option<int>)
    ensures r.Some? ==> IntMin <= r.value <= IntMax
    ensures r.Some? ==> ParseLeadingInt(s) == r
  {
    match ParseLeadingInt(s)
    case Some(v) => if IntMin <= v <= IntMax then Some(v) else None
    case None => None
  }

  lemma {:induction false} DigitRunAll(s: string)
    requires AllDigits(s)
    ensures DigitRun(s) == |s|
    decreases |s|
  {
    if s != [] {
      DigitRunAll(s[1..]);
    }
  }

  /** Parsing the rendering of any integer gives it back. */
  lemma ParseIntToString(i: int)
    ensures ParseLeadingInt(IntToString(i)) == Some(i)
  {
    var s := IntToString(i);
    var body := if i < 0 then s[1..] else s;
    var m: nat := if i < 0 then -i else i;
    assert body == NatToString(m);
    DigitRunAll(body);
    NatToStringValue(m);
    assert body[..|body|] == body;
  }

  lemma StoiIntToString(i: int)
    requires IntMin <= i <= IntMax
    ensures Stoi(IntToString(i)) == Some(i)
  {
    ParseIntToString(i);
  }

  // ---------------------------------------------------------------------
  // Splitting on a delimiter, as a getline loop does
  // ---------------------------------------------------------------------

  /** Every piece between delimiters, including empty ones at either end. */
  function SplitAll(s: string, sep: char): (parts: seq<string>)
    ensures |parts| >= 1
    ensures forall i :: 0 <= i < |parts| ==> sep !in parts[i]
  {
    if s == [] then [""]
    else
      var rest := SplitAll(s[1..], sep);
      if s[0] == sep then [""] + rest
      else [[s[0]] + rest[0]] + rest[1..]
  }

  /**
   * The items `while (getline(ss, item, sep)) parts.push_back(item);`
   * collects: the pieces between delimiters, except that an empty piece
   * after the last delimiter (or an empty line) yields no item.
   */
  function Fields(s: string, sep: char): (parts: seq<string>)
    ensures forall i :: 0 <= i < |parts| ==> sep !in parts[i]
  {
    var all := SplitAll(s, sep);
    if all[|all| - 1] == "" then all[..|all| - 1] else all
  }

  /** The fields joined by the delimiter: `a + "," + b + "," + c`. */
  function Join(fields: seq<string>, sep: char): (s: string)
    ensures |fields| >= 1 ==> |fields[0]| <= |s| && s[..|fields[0]|] == fields[0]
    ensures |fields| >= 2 ==> |fields[0]| < |s| && s[|fields[0]|] == sep
  {
    if |fields| == 0 then ""
    else if |fields| == 1 then fields[0]
    else fields[0] + [sep] + Join(fields[1..], sep)
  }

  /** Joining with an empty last field ends the text with the delimiter. */
  lemma {:induction false} JoinEmptyLast(fields: seq<string>, sep: char)
    requires |fields| >= 1
    ensures Join(fields + [""], sep) == Join(fields, sep) + [sep]
    decreases |fields|
  {
    var all := fields + [""];
    if |fields| > 1 {
      assert all[1..] == fields[1..] + [""];
      JoinEmptyLast(fields[1..], sep);
    } else {
      assert all[1..] == [""];
    }
  }

  lemma {:induction false} SplitAllNoSep(f: string, sep: char)
    requires sep !in f
    ensures SplitAll(f, sep) == [f]
    decreases |f|
  {
    if f != [] {
      SplitAllNoSep(f[1..], sep);
      assert [f[0]] + f[1..] == f;
    }
  }

  lemma {:induction false} SplitAllCons(f: string, sep: char, rest: string)
    requires sep !in f
    ensures SplitAll(f + [sep] + rest, sep) == [f] + SplitAll(rest, sep)
    decreases |f|
  {
    var s := f + [sep] + rest;
    if f == [] {
      assert s[1..] == rest;
    } else {
      assert s[1..] == f[1..] + [sep] + rest;
      SplitAllCons(f[1..], sep, rest);
      assert [f[0]] + f[1..] == f;
    }
  }

  /** Splitting a join of delimiter-free fields recovers every field. */
  lemma {:induction false} SplitAllJoin(fields: seq<string>, sep: char)
    requires |fields| >= 1
    requires forall i :: 0 <= i < |fields| ==> sep !in fields[i]
    ensures SplitAll(Join(fields, sep), sep) == fields
    decreases |fields|
  {
    if |fields| == 1 {
      SplitAllNoSep(fields[0], sep);
    } else {
      SplitAllJoin(fields[1..], sep);
      SplitAllCons(fields[0], sep, Join(fields[1..], sep));
      assert [fields[0]] + fields[1..] == fields;
    }
  }

  /**
   * The getline loop reads back what was joined, as long as no field holds
   * the delimiter and the last field is not empty.
   */
  lemma FieldsJoin(fields: seq<string>, sep: char)
    requires |fields| >= 1 && fields[|fields| - 1] != ""
    requires forall i :: 0 <= i < |fields| ==> sep !in fields[i]
    ensures Fields(Join(fields, sep), sep) == fields
  {
    SplitAllJoin(fields, sep);
  }

  // ---------------------------------------------------------------------
  // The key order of std::map<std::string, _>
  // ---------------------------------------------------------------------

  /**
   * Lexicographic order on code points, which for UTF-8 text is the
   * byte-wise order `std::string::compare` uses; a proper prefix comes first.
   */
  predicate Less(a: string, b: string)
    decreases |a|
  {
    if a == [] then b != []
    else if b == [] then false
    else if a[0] != b[0] then a[0] < b[0]
    else Less(a[1..], b[1..])
  }

  lemma {:induction false} LessIrreflexive(a: string)
    ensures !Less(a, a)
    decreases |a|
  {
    if a != [] { LessIrreflexive(a[1..]); }
  }

  lemma {:induction false} LessTransitive(a: string, b: string, c: string)
    requires Less(a, b) && Less(b, c)
    ensures Less(a, c)
    decreases |a|
  {
    if a != [] && a[0] == b[0] && b[0] == c[0] {
      LessTransitive(a[1..], b[1..], c[1..]);
    }
  }

  lemma {:induction false} LessTotal(a: string, b: string)
    requires a != b
    ensures Less(a, b) || Less(b, a)
    decreases |a|
  {
    if a != [] && b != [] && a[0] == b[0] {
      assert a == [a[0]] + a[1..] && b == [b[0]] + b[1..];
      LessTotal(a[1..], b[1..]);
    }
  }

  predicate IsLeast(k: string, keys: set<string>)
  {
    k in keys && forall j :: j in keys ==> !Less(j, k)
  }

  /** Every non-empty finite set of keys has a least element. */
  lemma {:induction false} LeastExists(keys: set<string>)
    requires keys != {}
    ensures exists k :: IsLeast(k, keys)
    decreases keys
  {
    var x :| x in keys;
    if keys - {x} == {} {
      assert keys == {x};
      LessIrreflexive(x);
      assert IsLeast(x, keys);
    } else {
      LeastExists(keys - {x});
      var m :| IsLeast(m, keys - {x});
      if Less(x, m) {
        forall j | j in keys ensures !Less(j, x) {
          if j == x { LessIrreflexive(x); }
          else if Less(j, x) { LessTransitive(j, x, m); }
        }
        assert IsLeast(x, keys);
      } else {
        assert IsLeast(m, keys);
      }
    }
  }

  lemma LeastUnique(k1: string, k2: string, keys: set<string>)
    requires IsLeast(k1, keys) && IsLeast(k2, keys)
    ensures k1 == k2
  {
    if k1 != k2 { LessTotal(k1, k2); }
  }

  /** The keys in ascending order: the iteration order of a `std::map`. */
  ghost function SortedKeys(keys: set<string>): (r: seq<string>)
    ensures |r| == |keys|
    ensures forall i :: 0 <= i < |r| ==> r[i] in keys
    ensures forall k :: k in keys ==> k in r
    ensures forall i, j :: 0 <= i < j < |r| ==> Less(r[i], r[j])
    decreases keys
  {
    if keys == {} then []
    else
      LeastExists(keys);
      var k :| IsLeast(k, keys);
      var rest := SortedKeys(keys - {k});
      assert forall i :: 0 <= i < |rest| ==> Less(k, rest[i]) by {
        forall i | 0 <= i < |rest| ensures Less(k, rest[i]) {
          assert rest[i] in keys && rest[i] != k;
          LessTotal(k, rest[i]);
        }
      }
      [k] + rest
  }

  /** The least key comes first, followed by the rest in ascending order. */
  lemma SortedKeysFirst(keys: set<string>, k: string)
    requires IsLeast(k, keys)
    ensures SortedKeys(keys) == [k] + SortedKeys(keys - {k})
  {
    var r := SortedKeys(keys);
    assert r[0] in keys;
    forall j | j in keys ensures !Less(j, r[0]) {
      var i :| 0 <= i < |r| && r[i] == j;
      if i == 0 {
        LessIrreflexive(j);
      }
    }
    LeastUnique(r[0], k, keys);
  }
}

=== FILE: website.dfy ===
/**
 * The site's account and chat store: a list of users seeded with a default
 * administrator, registration with its validation rules, login by exact
 * username and password, logout, and posting chat messages as the signed-in
 * user. Form fields, the clock and the stored lists are parameters.
 */
module Website {
  import opened Wrappers

  // ---------------------------------------------------------------------
  // String.prototype.trim
  // ---------------------------------------------------------------------

  /** The white space and line terminators `trim` removes. */
  predicate IsJsSpace(c: char)
  {
    c == '\t' || c == '\n' || c == '\U{B}' || c == '\U{C}' || c == '\r' || c == ' '
    || c == '\U{A0}' || c == '\U{1680}' || ('\U{2000}' <= c <= '\U{200A}')
    || c == '\U{2028}' || c == '\U{2029}' || c == '\U{202F}' || c == '\U{205F}'
    || c == '\U{3000}' || c == '\U{FEFF}'
  }

  predicate AllSpace(s: string)
  {
    forall i :: 0 <= i < |s| ==> IsJsSpace(s[i])
  }

  /** The string without its leading white space. */
  function TrimStart(s: string): (r: string)
    ensures |r| <= |s| && r == s[|s| - |r|..]
    ensures AllSpace(s[..|s| - |r|])
    ensures r == [] || !IsJsSpace(r[0])
    decreases |s|
  {
    if s != [] && IsJsSpace(s[0]) then
      var r := TrimStart(s[1..]);
      assert s[..|s| - |r|] == [s[0]] + s[1..][..|s| - 1 - |r|];
      r
    else s
  }

  /** The string without its trailing white space. */
  function TrimEnd(s: string): (r: string)
    ensures |r| <= |s| && r == s[..|r|]
    ensures AllSpace(s[|r|..])
    ensures r == [] || !IsJsSpace(r[|r| - 1])
    decreases |s|
  {
    if s != [] && IsJsSpace(s[|s| - 1]) then
      var r := TrimEnd(s[..|s| - 1]);
      assert s[|r|..] == s[..|s| - 1][|r|..] + [s[|s| - 1]];
      r
    else s
  }

  /** `trim`: the string between its leading and trailing white space. */
  function Trim(s: string): (r: string)
    ensures exists i, j :: 0 <= i <= j <= |s| && r == s[i..j] && AllSpace(s[..i]) && AllSpace(s[j..])
    ensures r == [] || (!IsJsSpace(r[0]) && !IsJsSpace(r[|r| - 1]))
    ensures r == [] <==> AllSpace(s)
  {
    TrimWindow(s);
    TrimEdges(s);
    TrimEmptyIffSpace(s);
    TrimEnd(TrimStart(s))
  }

  /** The trimmed text is a slice of the text with only white space cut off either side. */
  lemma TrimWindow(s: string)
    ensures var r := TrimEnd(TrimStart(s));
      exists i, j :: 0 <= i <= j <= |s| && r == s[i..j] && AllSpace(s[..i]) && AllSpace(s[j..])
  {
    var t := TrimStart(s);
    SpaceWindow(s, t, TrimEnd(t));
  }

  /** A prefix `r` of a suffix `t` of `s`, cut at white space both times, is a window of `s`. */
  lemma SpaceWindow(s: string, t: string, r: string)
    requires |t| <= |s| && t == s[|s| - |t|..] && AllSpace(s[..|s| - |t|])
    requires |r| <= |t| && r == t[..|r|] && AllSpace(t[|r|..])
    ensures exists i, j :: 0 <= i <= j <= |s| && r == s[i..j] && AllSpace(s[..i]) && AllSpace(s[j..])
  {
    var i := |s| - |t|;
    var j := i + |r|;
    assert r == s[i..j];
    assert s[j..] == t[|r|..];
  }

  /** Neither end of the trimmed text is white space. */
  lemma TrimEdges(s: string)
    ensures var r := TrimEnd(TrimStart(s));
      r == [] || (!IsJsSpace(r[0]) && !IsJsSpace(r[|r| - 1]))
  {
    var t := TrimStart(s);
    var r := TrimEnd(t);
    if r != [] {
      assert r[0] == t[0];
    }
  }

  /** Nothing is left exactly when the text is all white space. */
  lemma TrimEmptyIffSpace(s: string)
    ensures TrimEnd(TrimStart(s)) == [] <==> AllSpace(s)
  {
    var t := TrimStart(s);
    var r := TrimEnd(t);
    assert s == s[..|s| - |t|] + t;
    if r == [] {
      assert t == t[|r|..];
      AllSpaceConcat(s[..|s| - |t|], t);
    } else {
      assert !IsJsSpace(s[|s| - |t|]);
    }
  }

  lemma AllSpaceConcat(a: string, b: string)
    requires AllSpace(a) && AllSpace(b)
    ensures AllSpace(a + b)
  {
  }

  /** A string with no white space at either end is its own trim. */
  lemma TrimOfTrimmed(s: string)
    requires s == [] || (!IsJsSpace(s[0]) && !IsJsSpace(s[|s| - 1]))
    ensures Trim(s) == s
  {
  }

  /** Trimming twice is trimming once. */
  lemma TrimIdempotent(s: string)
    ensures Trim(Trim(s)) == Trim(s)
  {
    TrimOfTrimmed(Trim(s));
  }

  // ---------------------------------------------------------------------
  // Users and messages
  // ---------------------------------------------------------------------

  datatype User = User(username: string, password: string, isAdmin: bool)

  /** A chat message: the clock supplies the id and the time stamp text. */
  datatype Message = Message(id: int, username: string, text: string, timestamp: string, isAdmin: bool)

  const DefaultAdmin: User := User("admin", "Eypass338", true)

  predicate NameTaken(users: seq<User>, name: string)
  {
    exists i :: 0 <= i < |users| && users[i].username == name
  }

  /** No two users share a username. */
  predicate UniqueNames(users: seq<User>)
  {
    forall i, j :: 0 <= i < j < |users| ==> users[i].username != users[j].username
  }

  /** The list after `initializeDefaultAdmin`: the default administrator is added if no user is named `admin`. */
  function WithDefaultAdmin(users: seq<User>): (r: seq<User>)
    ensures NameTaken(r, "admin")
    ensures NameTaken(users, "admin") ==> r == users
    ensures !NameTaken(users, "admin") ==> r == users + [DefaultAdmin]
  {
    if NameTaken(users, "admin") then users
    else
      assert (users + [DefaultAdmin])[|users|] == DefaultAdmin;
      users + [DefaultAdmin]
  }

  /** Seeding twice is seeding once, and seeding keeps usernames unique. */
  lemma WithDefaultAdminIdempotent(users: seq<User>)
    ensures WithDefaultAdmin(WithDefaultAdmin(users)) == WithDefaultAdmin(users)
    ensures UniqueNames(users) ==> UniqueNames(WithDefaultAdmin(users))
  {
  }

  /** The position of the first user with this username and password (`find`). */
  function FindUser(users: seq<User>, name: string, password: string): (r: Option<nat>)
    ensures r.Some? ==> r.value < |users| && users[r.value].username == name && users[r.value].password == password
    ensures r.Some? ==> forall j :: 0 <= j < r.value ==> !(users[j].username == name && users[j].password == password)
    ensures r.None? <==> forall j :: 0 <= j < |users| ==> !(users[j].username == name && users[j].password == password)
    decreases |users|
  {
    if users == [] then None
    else if users[0].username == name && users[0].password == password then Some(0)
    else
      match FindUser(users[1..], name, password)
      case Some(k) => Some(k + 1)
      case None => None
  }

  /** With unique usernames a login can match at most one user. */
  lemma FindUserUnique(users: seq<User>, name: string, password: string, i: nat)
    requires UniqueNames(users)
    requires i < |users| && users[i].username == name && users[i].password == password
    ensures FindUser(users, name, password) == Some(i)
  {
  }

  /** Why a registration was refused, or that it succeeded. */
  datatype RegisterStatus = Registered | EmptyField | PasswordMismatch | UsernameTooShort | PasswordTooShort | UsernameExists

  datatype LoginStatus = LoggedIn | MissingField | InvalidCredentials

  /** `WebsiteApp`: the user list, who is signed in, and the chat log. */
  class WebsiteApp {
    var users: seq<User>
    var currentUser: Option<User>
    var messages: seq<Message>

    /** The stored lists are read at start (none stored reads as empty); then the default administrator is seeded. */
    constructor(storedUsers: seq<User>, storedMessages: seq<Message>)
      ensures users == WithDefaultAdmin(storedUsers)
      ensures currentUser == None && messages == storedMessages
    {
      users := storedUsers;
      currentUser := None;
      messages := storedMessages;
      new;
      InitializeDefaultAdmin();
    }

    /** `initializeDefaultAdmin`: add `admin` / `Eypass338` as an administrator unless a user is named `admin`. */
    method InitializeDefaultAdmin()
      modifies this
      ensures users == WithDefaultAdmin(old(users))
      ensures currentUser == old(currentUser) && messages == old(messages)
    {
      var adminExists := exists i :: 0 <= i < |users| && users[i].username == "admin";
      if !adminExists {
        users := users + [DefaultAdmin];
      }
    }

    /**
     * `handleRegister`: the username is trimmed; the checks run in order
     * (a field empty, the passwords differ, the username under 3
     * characters, the password under 6, the username taken) and the first
     * that fails refuses the registration with nothing changed. Otherwise
     * one non-administrator is appended.
     */
    method HandleRegister(username: string, password: string, confirmPassword: string) returns (status: RegisterStatus)
      modifies this
      ensures var name := Trim(username);
        status == (if name == [] || password == [] || confirmPassword == [] then EmptyField
                   else if password != confirmPassword then PasswordMismatch
                   else if |name| < 3 then UsernameTooShort
                   else if |password| < 6 then PasswordTooShort
                   else if NameTaken(old(users), name) then UsernameExists
                   else Registered)
      ensures status == Registered ==> users == old(users) + [User(Trim(username), password, false)]
      ensures status != Registered ==> users == old(users)
      ensures UniqueNames(old(users)) ==> UniqueNames(users)
      ensures currentUser == old(currentUser) && messages == old(messages)
    {
      var name := Trim(username);
      if name == [] || password == [] || confirmPassword == [] {
        return EmptyField;
      }
      if password != confirmPassword {
        return PasswordMismatch;
      }
      if |name| < 3 {
        return UsernameTooShort;
      }
      if |password| < 6 {
        return PasswordTooShort;
      }
      if exists i :: 0 <= i < |users| && users[i].username == name {
        return UsernameExists;
      }
      users := users + [User(name, password, false)];
      status := Registered;
    }

    /**
     * `handleLogin`: the username is trimmed, the password is not; with
     * both present, the first user matching both signs in. Otherwise the
     * signed-in user stays as it was.
     */
    method HandleLogin(username: string, password: string) returns (status: LoginStatus)
      modifies this
      ensures var name := Trim(username);
        if name == [] || password == [] then
          status == MissingField && currentUser == old(currentUser)
        else match FindUser(users, name, password)
          case Some(i) => status == LoggedIn && currentUser == Some(users[i])
          case None => status == InvalidCredentials && currentUser == old(currentUser)
      ensures users == old(users) && messages == old(messages)
    {
      var name := Trim(username);
      if name == [] || password == [] {
        return MissingField;
      }
      match FindUser(users, name, password)
      case Some(i) =>
        currentUser := Some(users[i]);
        status := LoggedIn;
      case None =>
        status := InvalidCredentials;
    }

    /** `logout`: nobody is signed in. */
    method Logout()
      modifies this
      ensures currentUser == None
      ensures users == old(users) && messages == old(messages)
    {
      currentUser := None;
    }

    /**
     * `sendMessage`: the text is trimmed and an empty text is dropped;
     * otherwise one message under the signed-in user's name and
     * administrator flag is appended. With nobody signed in the source
     * fails on the missing user before appending, so nothing changes.
     */
    method SendMessage(input: string, id: int, timestamp: string)
      modifies this
      ensures var text := Trim(input);
        if text == [] || old(currentUser).None? then messages == old(messages)
        else messages == old(messages) + [Message(id, old(currentUser).value.username, text, timestamp,
                                                  old(currentUser).value.isAdmin)]
      ensures forall k :: |old(messages)| <= k < |messages| ==> messages[k].text != []
      ensures users == old(users) && currentUser == old(currentUser)
      ensures |old(messages)| <= |messages| && messages[..|old(messages)|] == old(messages)
    {
      var text := Trim(input);
      if text == [] {
        return;
      }
      if currentUser.None? {
        return;
      }
      var user := currentUser.value;
      messages := messages + [Message(id, user.username, text, timestamp, user.isAdmin)];
    }
  }

  /**
   * A user appended by a successful registration can sign in with the
   * trimmed name and the password as typed: no earlier user has that name,
   * so the first match is the new one.
   */
  lemma RegisteredCanLogIn(users: seq<User>, username: string, password: string)
    requires !NameTaken(users, Trim(username))
    ensures FindUser(users + [User(Trim(username), password, false)], Trim(username), password) == Some(|users|)
  {
    var after := users + [User(Trim(username), password, false)];
    assert after[|users|].username == Trim(username);
  }
}

=== FILE: wrappers.dfy ===
/** Failure-carrying values shared by every module of the model. */
module Wrappers {

  datatype Option<+T> = None | Some(value: T)

  datatype Result<+T, +E> = Ok(value: T) | Err(error: E)
}
